=== FILE: README.md ===
# BibleBooksCodes in Dafny

This is a model of the book-code translation core of BibleBooksCodes. The
repository translates the identifiers of Bible books between coding schemes:
its own three-character reference abbreviations (`GEN`, `KI1`, `CO2`), USFM,
OSIS and English names. The model covers five parts.

- `BookTable` (`book_table.dfy`) is the offline compiler
  `Rust/bos_books_codes/build_static_tables.py`, written as a pure `Build(rows)`.
  - Row `i` of the TSV table becomes array entry `i`, with each field encoded as
    the script prints it.
  - The five `phf_map!` index maps are built from the rows: reference, USFM,
    uppercase USFM, OSIS and English names.
  - A duplicate key, which `phf_map!` rejects when the generated source is
    compiled, is an `Err` of `Build`. So is a failed assertion of the script.
- `Lookup` (`lookup.dfy`) is the run-time resolvers of
  `Rust/bos_books_codes/lib.src.rs` over those maps:
  - the validity check;
  - reference → USFM, with three outcomes;
  - USFM → reference, trying the exact map first and then the uppercase map
    with the raw input;
  - OSIS → reference;
  - the English-name resolver with its 18 ordinal-prefix rewrite rules;
  - `LookupError` and its `Display` text.
- `BuildProperties` (`build_properties.dfy`) ties the two together. What
  `Build` puts in each map, and what the resolvers therefore answer:
  - every returned code is a valid reference abbreviation;
  - the reference → USFM → reference round trip;
  - the uppercase fallback;
  - the English forms.
- `JsonCodes` (`json_codes.dfy`) is the older dictionary lookups of
  `Rust/src/lib.rs`.
- `BooksCodesJs` (`books_codes_js.dfy`) is the pure helpers of
  `JavaScript/BibleBooksCodes.js`:
  - `isValidBBB` and `contains`;
  - `getSequenceList`;
  - `tidyBBB`;
  - `BCVReferenceToInt`;
  - the testament range tests;
  - the English-name list;
  - `getMaxChapters`.

  A JavaScript `TypeError` is an `Err`, and `NaN` is a value of its own.

Three support modules complete the project:

- `Text` (`text.dfy`) holds the string operations the three languages share:
  - ASCII upper-casing;
  - splitting and joining on a character;
  - JavaScript `trim`;
  - JavaScript `Number.parseInt`.
- `Wrappers` (`wrappers.dfy`) holds `Option` and `Result`.
- `Fixture` (`fixture.dfy`) is a four-book table, proved to be what `Build`
  makes of four rows. On it, the unit-test examples of `lib.src.rs` on these
  four books come out as the tests expect.

## Model

| member | source | states |
|---|---|---|
| Lookup.Display | Rust/bos_books_codes/lib.src.rs:20-28 | the text of an error begins with the scheme's name followed by ` abbreviation '` |
| Lookup.DisplayInjective | Rust/bos_books_codes/lib.src.rs:14-28 | two errors print the same text exactly when they are the same error: the scheme and the exact key can be read back from the message |
| Lookup.ReferenceAbbrevToUsfmAbbrev | Rust/bos_books_codes/lib.src.rs:38-48 | an error carrying `Reference` and the exact input exactly when the code is not a reference-map key; otherwise `Ok` of the book's optional USFM field unchanged, where `Ok(None)` is an answer distinct from the error |
| Lookup.ValidAgreesWithLookup | Rust/bos_books_codes/lib.src.rs:33-43 | a code is valid (a key of the reference map, with no normalisation) exactly when reference → USFM succeeds on it |
| Lookup.UsfmAbbrevToReferenceAbbrev | Rust/bos_books_codes/lib.src.rs:50-78 | the exact map wins when it has the key; the uppercase map is consulted with the raw input and only when the exact map misses; an error carrying `USFM` and the input exactly when both miss |
| Lookup.OsisAbbrevToReferenceAbbrev | Rust/bos_books_codes/lib.src.rs:80-89 | one exact lookup; an error carrying `OSIS` and the input exactly on a miss, else the code of the indexed book |
| Lookup.Candidate | Rust/bos_books_codes/lib.src.rs:106-108 | the key a matching rule proposes is a numeral 1-6 followed by everything after the whole prefix, its separator included |
| Lookup.TryRules | Rust/bos_books_codes/lib.src.rs:106-114 | a result of the rule loop comes from some rule whose prefix matches, looked up at that rule's candidate |
| Lookup.EnglishNameToReferenceAbbrev | Rust/bos_books_codes/lib.src.rs:91-95 | when the upper-cased name is a key of the English map, that entry answers before any rule is tried |
| Lookup.RulesSeparatorTerminated | Rust/bos_books_codes/lib.src.rs:97-104 | every rule prefix ends in a space or a dot and has neither before that |
| Lookup.RulesDistinct | Rust/bos_books_codes/lib.src.rs:97-104 | the 18 prefixes are pairwise different |
| Lookup.RulesPrefixFree | Rust/bos_books_codes/lib.src.rs:97-104 | no rule prefix is a prefix of another |
| Lookup.AtMostOneRuleMatches | Rust/bos_books_codes/lib.src.rs:97-112 | at most one of the 18 prefixes matches any string, so the order of the rules never matters |
| Lookup.TryRulesDecided | Rust/bos_books_codes/lib.src.rs:106-114 | the rule loop answers with the lookup of the matching rule's candidate, and `None` when no prefix matches |
| Lookup.EnglishNameResolution | Rust/bos_books_codes/lib.src.rs:91-115 | after an exact miss, the result is the lookup of the one matching rule's candidate, and `None` when no rule matches |
| Lookup.EnglishNameIgnoresCase | Rust/bos_books_codes/lib.src.rs:92 | the resolver depends only on the upper-cased input |
| Lookup.RomanPrefixConsumesSeparator | Rust/bos_books_codes/lib.src.rs:98-108 | `I COR` matches the rule `I ` and becomes `1COR`: the separator goes with the prefix |
| BookTable.OptionalCell | Rust/bos_books_codes/build_static_tables.py:141-161 | an optional field is `None` exactly for an empty cell |
| BookTable.OptionalCellRoundTrip | Rust/bos_books_codes/build_static_tables.py:141-161 | the cell can be read back from its optional field, and a field other than `Some("")` from its cell |
| BookTable.EncodeChapters | Rust/bos_books_codes/build_static_tables.py:81-85 | the script's assertion fails exactly when the cell has more than one comma; otherwise empty gives `None`, a comma gives `TwoNumbers` with no comma in either part, and anything else gives `Number` |
| BookTable.ChaptersRoundTrip | Rust/bos_books_codes/build_static_tables.py:81-85 | an accepted chapters cell is recovered from its encoding |
| BookTable.BooksCodesList | Rust/bos_books_codes/build_static_tables.py:158 | the alternative books codes slice is empty exactly for an empty cell |
| BookTable.EncodeRow | Rust/bos_books_codes/build_static_tables.py:81-163 | encoding a row fails exactly on the chapters assertion, and it keeps the reference abbreviation and the optional USFM and OSIS fields of the cell |
| BookTable.EncodeRowRoundTrip | Rust/bos_books_codes/build_static_tables.py:133-163 | every cell of a row is recovered from its array entry, so no field is lost |
| BookTable.FirstWins | Rust/bos_books_codes/build_static_tables.py:171-177 | the dictionary update skips an empty cell and an abbreviation already present, adds the key otherwise, and keeps the keys distinct |
| BookTable.EnglishPairs | Rust/bos_books_codes/build_static_tables.py:169-170 | one `(name, n)` pair per comma-separated English form of row `n` |
| BookTable.Collect | Rust/bos_books_codes/build_static_tables.py:74-177 | after the loop, entry `i` encodes row `i`; the reference abbreviations are in row order without repetition; the English pairs are exactly those of the rows; the USFM and OSIS dictionaries hold exactly the first row for each non-empty cell |
| BookTable.Step | Rust/bos_books_codes/build_static_tables.py:81-177 | one pass of the loop body fails exactly when the chapters cell has more than one comma or an earlier row has the reference abbreviation, and the error names the row |
| BookTable.CollectFails | Rust/bos_books_codes/build_static_tables.py:74-177 | the loop fails exactly when some row is rejected, and then at the first rejected row with one of the script's own assertion errors |
| BookTable.StepPreserves | Rust/bos_books_codes/build_static_tables.py:74-177 | one pass of the loop body keeps that description true for one row more |
| BookTable.ReferenceGuard | Rust/bos_books_codes/build_static_tables.py:167 | the corrected uniqueness check passes exactly when no earlier row has the abbreviation |
| BookTable.ReferenceGuardAsWrittenNeverFires | Rust/bos_books_codes/build_static_tables.py:167-168 | the check as written compares the raw abbreviation with quoted strings and passes whenever the abbreviation does not start with a quote |
| BookTable.RepeatedGenesisRow | Rust/bos_books_codes/build_static_tables.py:167-168 | a second `GEN` row passes the written check and fails the corrected one |
| BookTable.PhfMap | Rust/bos_books_codes/build_static_tables.py:251-255 | a map is produced exactly when the keys are distinct, with exactly the listed keys each sent to its value; otherwise the error names that table and a key that occurs at two positions of the entries |
| BookTable.PhfMapExactly | Rust/bos_books_codes/build_static_tables.py:251-255 | over entries without a repeated key, the map produced is any map with exactly those keys, each sent to its value |
| BookTable.AssembleSucceeds | Rust/bos_books_codes/build_static_tables.py:245-255 | the five maps compile exactly when none of the five key lists repeats a key, and the array is the loop's entries; any failure is a repeated key |
| BookTable.BuildFailsInLoop | Rust/bos_books_codes/build_static_tables.py:74-255 | the build fails with an error that is not a repeated map key exactly when some row is rejected, and no row before the one named is rejected |
| BookTable.IndexedEntries | Rust/bos_books_codes/build_static_tables.py:251 | the reference map's entries pair each abbreviation with its row index |
| BookTable.UppercaseEntries | Rust/bos_books_codes/build_static_tables.py:253 | the uppercase map's entries are the USFM entries, in order, with the keys upper-cased and the indices unchanged |
| BuildProperties.FirstWinsMapFrom | Rust/bos_books_codes/build_static_tables.py:171-177 | a map built from the first-wins entries holds exactly the non-empty cells of the column, each sent to the first row carrying it |
| BuildProperties.BuildParts | Rust/bos_books_codes/build_static_tables.py:74-255 | a successful build is a successful row loop followed by the map construction |
| BuildProperties.AssembleParts | Rust/bos_books_codes/build_static_tables.py:245-255 | each table of a successful build is the `phf_map!` of its emitted entries, and the array is the loop's entries |
| BuildProperties.BuildBooks | Rust/bos_books_codes/build_static_tables.py:133-163 | the array has one entry per row, and entry `i` encodes row `i` |
| BuildProperties.BuildReferenceMap | Rust/bos_books_codes/build_static_tables.py:167-168 | the reference abbreviations of the rows are pairwise distinct; the reference map sends row `i`'s abbreviation to `i` and holds no other key |
| BuildProperties.BuildUsfmMap | Rust/bos_books_codes/build_static_tables.py:171-174 | the USFM map holds exactly the non-empty USFM cells, each sent to the first row with it |
| BuildProperties.BuildOsisMap | Rust/bos_books_codes/build_static_tables.py:175-177 | the OSIS map holds exactly the non-empty OSIS cells, each sent to the first row with it |
| BuildProperties.BuildUppercaseMap | Rust/bos_books_codes/build_static_tables.py:253 | the uppercase map sends `Upper(k)` to the USFM map's value for `k`, and has no key that is not such an upper-casing |
| BuildProperties.BuildEnglishMap | Rust/bos_books_codes/build_static_tables.py:169-170 | every comma-separated English form of row `i` maps to `i`, and every key is a form of the row it maps to |
| BuildProperties.BuildValid | Rust/bos_books_codes/build_static_tables.py:245-255 | every index in every map is within the array, so the resolvers never index out of bounds |
| BuildProperties.BuildKeepsRows | Rust/bos_books_codes/build_static_tables.py:133-163 | each row can be read back from its array entry |
| BuildProperties.ReferenceOfIsValid | Rust/bos_books_codes/build_static_tables.py:251 | the reference abbreviation of any array entry is a valid code |
| BuildProperties.ValidExactlyRowCodes | Rust/bos_books_codes/lib.src.rs:33-36 | on generated tables a code is valid exactly when some row has it as its reference abbreviation, spelled exactly so |
| BuildProperties.ResolvedCodesAreValid | Rust/bos_books_codes/lib.src.rs:71-115 | every code returned by the USFM, OSIS or English resolver is a valid reference abbreviation |
| BuildProperties.ReferenceToUsfmOfRow | Rust/bos_books_codes/lib.src.rs:42-45 | reference → USFM on row `i`'s code gives that row's USFM cell, `None` when the cell is empty |
| BuildProperties.UsfmRoundTrip | Rust/bos_books_codes/build_static_tables.py:173-174 | for a row with USFM `u`, reference → USFM gives `u`, and USFM → reference gives back the row's own code exactly when it is the first row carrying `u` |
| BuildProperties.UsfmCaseFallback | Rust/bos_books_codes/lib.src.rs:71-74 | the upper-cased spelling of a USFM code resolves like the code itself when no row carries that spelling (`MAT` like `Mat`) |
| BuildProperties.UsfmFallbackUsesRawInput | Rust/bos_books_codes/lib.src.rs:71-77 | an input outside the exact map that is not upper-cased fails, because the uppercase map is consulted with the raw input (`mat` fails) |
| BuildProperties.UppercaseKeysAreUpperCased | Rust/bos_books_codes/build_static_tables.py:253 | every key of the uppercase map is upper-cased |
| BuildProperties.EnglishFormResolves | Rust/bos_books_codes/lib.src.rs:91-95 | an English form that a row stores upper-cased, typed in any ASCII case, resolves to that row's code |
| BuildProperties.EnglishLowerCaseFormsUnreachable | Rust/bos_books_codes/lib.src.rs:91-112 | whatever the name, an answer is the lookup of a stored key that is upper-cased, so a stored form with a lower-case letter never answers |
| BuildProperties.UppercaseCollisionFails | Rust/bos_books_codes/build_static_tables.py:253 | two different USFM cells that agree once upper-cased make the build fail on the uppercase map |
| JsonCodes.Collapse | Rust/src/lib.rs:139-142 | a single string is itself; a list is its first element; an empty list panics, and only an empty list does |
| JsonCodes.MessagesIdentifyKey | Rust/src/lib.rs:136-160 | each error message determines its key, and an abbreviation message never equals a number message |
| JsonCodes.UsfmToBbb | Rust/src/lib.rs:133-143 | an error with `Invalid USFM abbreviation: '<key>'` exactly when the key is absent; otherwise the collapse of the entry's USFM abbreviation field, so despite its name the result is a USFM code and not a reference abbreviation (the crate's own test expects `JAM` for `JAS`) |
| JsonCodes.UsfmNumToUsfmAbbrev | Rust/src/lib.rs:145-155 | an error with `Invalid USFM number: '<key>'` exactly when the key is absent; otherwise the collapse of the USFM abbreviation field |
| JsonCodes.UsfmNumToBbb | Rust/src/lib.rs:157-167 | an error with `Invalid USFM number: '<key>'` exactly when the key is absent; otherwise the collapse of the reference abbreviation field |
| JsonCodes.NumberLookupsAgree | Rust/src/lib.rs:145-167 | the two number lookups fail on the same keys with the same message, and on a hit read the two fields of the same entry |
| JsonCodes.LookupsAreExact | Rust/src/lib.rs:135 | a key that is absent fails even when its upper-cased form is present: there is no case normalisation |
| BooksCodesJs.IsValidBbbAsWritten | JavaScript/BibleBooksCodes.js:73-78 | true for the dictionary's keys and also for every name inherited from `Object.prototype` |
| BooksCodesJs.ContainsAsWritten | JavaScript/BibleBooksCodes.js:59-62 | `contains` answers as `isValidBBB` does |
| BooksCodesJs.IsValidBbb | JavaScript/BibleBooksCodes.js:73-78 | the corrected check: true exactly for keys of the dictionary |
| BooksCodesJs.ValidityChecksAgree | JavaScript/BibleBooksCodes.js:59-78 | `contains` and `isValidBBB` agree; on names that are not inherited, the written check is the key test |
| BooksCodesJs.InheritedNameCountsAsValid | JavaScript/BibleBooksCodes.js:73-78 | `toString` passes the written check on any table without such a key, and fails the corrected one |
| BooksCodesJs.ReferenceNumber | JavaScript/BibleBooksCodes.js:107-110 | a book's reference number, and a `TypeError` exactly for a missing book |
| BooksCodesJs.IsOldTestament | JavaScript/BibleBooksCodes.js:678-684 | true exactly for reference numbers 1..39; a `TypeError` for a missing book |
| BooksCodesJs.IsNewTestament | JavaScript/BibleBooksCodes.js:686-692 | true exactly for reference numbers 40..66; a `TypeError` for a missing book |
| BooksCodesJs.TestamentsDisjoint | JavaScript/BibleBooksCodes.js:678-692 | the two tests fail on the same books and are never both true |
| BooksCodesJs.EnglishNameList | JavaScript/BibleBooksCodes.js:657-676 | one name per `/`-separated piece of the guide, each trimmed; a `TypeError` exactly for a missing book |
| BooksCodesJs.EnglishName | JavaScript/BibleBooksCodes.js:647-655 | a `TypeError` exactly for a missing book |
| BooksCodesJs.EnglishNameIsFirstOfList | JavaScript/BibleBooksCodes.js:647-676 | the single name is the first element of the list; the list has one more name than the guide has slashes; no listed name begins or ends with white space |
| BooksCodesJs.ExpectedChaptersList | JavaScript/BibleBooksCodes.js:327-356 | `undefined` exactly when the chapters text is null or empty; otherwise pieces that join back with commas to that text; a `TypeError` for a missing book |
| BooksCodesJs.MaxOfParsed | JavaScript/BibleBooksCodes.js:362-383 | the loop's result is at least -1 and at least every parsed number, and it is -1 or one of them; `NaN` entries are ignored |
| BooksCodesJs.MaxOfEntries | JavaScript/BibleBooksCodes.js:362-383 | the loop over the list's texts: at least -1 and at least every number `parseInt` reads from them, and -1 or one of those numbers |
| BooksCodesJs.MaxChapters | JavaScript/BibleBooksCodes.js:358-384 | a `TypeError` exactly when the chapters list is `undefined` or the book is missing; otherwise the largest number `parseInt` reads from the list, or -1 |
| BooksCodesJs.ItemKey | JavaScript/BibleBooksCodes.js:131 | a string stands for itself; a tuple stands for its first entry, and an empty tuple for nothing |
| BooksCodesJs.FirstWithKey | JavaScript/BibleBooksCodes.js:141-148 | the inner loop finds an item exactly when some item stands for the code, and what it finds is an item of the list with that code |
| BooksCodesJs.Arrange | JavaScript/BibleBooksCodes.js:136-150 | the result has at most one element per sequence entry, each an item of the caller's list standing for a code of the sequence |
| BooksCodesJs.SequenceList | JavaScript/BibleBooksCodes.js:112-155 | `null` or `undefined` (the default parameter) gives the stored sequence; `false`, `0`, `""` or `NaN` gives `[]`; a list gives items of that list |
| BooksCodesJs.ArrangeFollowsSequence | JavaScript/BibleBooksCodes.js:138-150 | the result's codes are the sequence's codes that occur in the list, in sequence order, and each element is the first item for its code |
| BooksCodesJs.PresentMembers | JavaScript/BibleBooksCodes.js:138-150 | a code is in the result exactly when it is in the sequence and some item stands for it |
| BooksCodesJs.PresentCount | JavaScript/BibleBooksCodes.js:138-150 | over a sequence without repeats, the result has one element per code the sequence shares with the list |
| BooksCodesJs.KeysCount | JavaScript/BibleBooksCodes.js:141-148 | items with pairwise different codes have as many codes as items |
| BooksCodesJs.SequenceListKeepsValidItems | JavaScript/BibleBooksCodes.js:138-152 | for a list of distinct valid codes, the result has the list's length and holds every item of it |
| BooksCodesJs.TidyBbbAsWritten | JavaScript/BibleBooksCodes.js:731-737 | every call throws a `TypeError` |
| BooksCodesJs.TidyBbbsAsWritten | JavaScript/BibleBooksCodes.js:739-755 | only an empty list gets through |
| BooksCodesJs.TidyBbb | JavaScript/BibleBooksCodes.js:731-737 | a digit in position 2 moves to the front (`SA1` → `1SA`), anything else is unchanged, and a three-character code stays three characters |
| BooksCodesJs.TidyBbbs | JavaScript/BibleBooksCodes.js:739-755 | the corrected `tidyBBB` applied to each code, keeping the length |
| BooksCodesJs.TidyRoundTrip | JavaScript/BibleBooksCodes.js:731-737 | for a code starting with a letter, moving the digit back undoes the tidy, and tidying a tidied code whose middle is not a digit changes nothing |
| BooksCodesJs.KeyWithOrder | JavaScript/BibleBooksCodes.js:594-624 | with chapters and verses below their bases and suffixes below 10, a key of this shape orders references by book number, then chapter, verse and suffix, in both directions, and gives distinct references distinct keys |
| BooksCodesJs.SortKeyAsWrittenOrder | JavaScript/BibleBooksCodes.js:594-624 | the key as written orders references correctly while chapters stay below 100 and verses below 150 |
| BooksCodesJs.PsalmsCollide | JavaScript/BibleBooksCodes.js:594-608 | as written, chapter `100 + c` of a book gets the key of chapter `c` of the next book and verse `150 + v` that of verse `v` of the next chapter (Psalm 101:1 against 20 1:1, Psalm 119:151 against 120:1); the intended key orders both pairs |
| BooksCodesJs.SortKeyOrder | JavaScript/BibleBooksCodes.js:594-624 | the intended key, with bases 1000 for chapters and verses, orders every reference of the table by book number, then chapter, verse and suffix, in both directions, and gives distinct references distinct keys |
| BooksCodesJs.MixOrder | JavaScript/BibleBooksCodes.js:594-624 | one step of the key, `hi * base + lo` with `0 <= lo < base`, orders like the pair `(hi, lo)` |
| BooksCodesJs.Combine | JavaScript/BibleBooksCodes.js:594-624 | `NaN` in either operand gives `NaN`; otherwise `acc * base + digit` |
| BooksCodesJs.BcvReferenceToIntAsWritten | JavaScript/BibleBooksCodes.js:565-626 | a `TypeError` exactly when the tuple is shorter than three or names a missing book; `NaN` exactly when `parseInt` reads no number from the chapter or from the verse before any `-`; otherwise the key as written of the book number, `C`, `V` and suffix 0 |
| BooksCodesJs.SuffixValue | JavaScript/BibleBooksCodes.js:610-614 | an absent or empty suffix and `a` count 0, `b` counts 1, in either case; `NaN` exactly for any other suffix |
| BooksCodesJs.BcvReferenceToInt | JavaScript/BibleBooksCodes.js:565-626 | the corrected function: the same `TypeError` cases; `NaN` exactly when the chapter, the verse or the suffix does not read; otherwise the intended key of the book number, `C`, `V` and the suffix's value |
| BooksCodesJs.AsWrittenIgnoresSuffix | JavaScript/BibleBooksCodes.js:572-579 | as written, verses `a` and `b` of one reference get the same key; corrected, they differ |
| BooksCodesJs.VerseRangeUsesStart | JavaScript/BibleBooksCodes.js:595-598 | a verse range `5-7` sorts as its start `5` |
| Text.UpperChar | Rust/bos_books_codes/lib.src.rs:92 | a lower-case ASCII letter becomes its capital, 32 code points down; every other character is unchanged; the result is never a lower-case letter |
| Text.Upper | Rust/bos_books_codes/lib.src.rs:92 | upper-casing keeps the length and changes exactly the lower-case ASCII letters |
| Text.UpperFixedPoints | Rust/bos_books_codes/build_static_tables.py:253 | an upper-cased string is upper-cased, and upper-casing leaves exactly the upper-cased strings unchanged |
| Text.JoinSplit | Rust/bos_books_codes/build_static_tables.py:157 | joining the pieces of a split with the separator gives the original string back |
| Text.SplitPiecesFree | Rust/bos_books_codes/build_static_tables.py:169 | no piece of a split contains the separator |
| Text.SplitCount | Rust/bos_books_codes/build_static_tables.py:82-83 | a split has one piece more than the string has separators |
| Text.SplitFree | Rust/bos_books_codes/build_static_tables.py:169 | a string without the separator splits into itself alone |
| Text.SplitAt | Rust/bos_books_codes/build_static_tables.py:169 | the first separator ends the first piece, and the rest of the string splits on its own |
| Text.TakeUntil | JavaScript/BibleBooksCodes.js:595 | `split("-")[0]` is a prefix of the string without the separator, and it stops at the first separator when there is one |
| Text.TakeUntilIsFirstPiece | JavaScript/BibleBooksCodes.js:654 | `split("/", 1)[0]` is the first piece of the full split |
| Text.Trim | JavaScript/BibleBooksCodes.js:654 | the result is a contiguous part of the input with no white space at either end |
| Text.ParseInt | JavaScript/BibleBooksCodes.js:369 | a number is read only when the text contains a decimal digit |
| Text.ParseIntSkipsWhitespace | JavaScript/BibleBooksCodes.js:369 | leading white space does not change what `parseInt` reads |
| Text.ParseIntMinus | JavaScript/BibleBooksCodes.js:584 | a leading `-` negates the unsigned reading, and gives `NaN` when the unsigned reading is `NaN` |
| Text.ParseIntPlus | JavaScript/BibleBooksCodes.js:584 | a leading `+` is dropped |
| Text.ParseIntDecimalPrefix | JavaScript/BibleBooksCodes.js:598 | decimal digits are read up to the first character that is not one (`12ab` reads 12) |
| Text.ParseIntHex | JavaScript/BibleBooksCodes.js:598 | after `0x`, hexadecimal digits are read up to the first character that is not one |
| Text.ParseIntDecimal | JavaScript/BibleBooksCodes.js:370 | `parseInt` of a plain run of decimal digits is its value |
| Fixture.SampleIsBuilt | Rust/bos_books_codes/build_static_tables.py:74-255 | the sample tables are exactly what the generation makes of the four sample rows |
| Fixture.ReferenceExamples | Rust/bos_books_codes/lib.src.rs:161-181 | on the sample table, `EXO` gives `Some("Exo")`, `SAM` gives `Ok(None)`, `XyZ` gives the `Reference` error, `SAM` is valid and `SIM` is not |
| Fixture.UsfmExamples | Rust/bos_books_codes/lib.src.rs:184-191 | `Exo` → `EXO`, `1Ki` → `KI1`, `MAT` → `MAT` through the uppercase map; `mat` and `XyZ` give the `USFM` error |
| Fixture.OsisExamples | Rust/bos_books_codes/lib.src.rs:194-198 | `Exod` → `EXO`, and `XyZ` gives the `OSIS` error |
| Fixture.EnglishExactExamples | Rust/bos_books_codes/lib.src.rs:201-202 | `Exodus` → `EXO` and `1 Kings` → `KI1` by an exact hit of the upper-cased name |
| Fixture.EnglishOrdinalExample | Rust/bos_books_codes/lib.src.rs:97-110 | `I Kings` is rewritten to `1KINGS` and resolves to `KI1` |
| Fixture.EnglishMissExample | Rust/bos_books_codes/lib.src.rs:212 | `XyZ` gives `None` |
| Fixture.TidyExamples | JavaScript/BibleBooksCodes.js:731-737 | intended, `SA1` becomes `1SA` and `GEN` stays; as written, `SA1` throws |
| Fixture.SortKeyExamples | JavaScript/BibleBooksCodes.js:594-624 | Genesis 1:1 and 1:2 under the written key; the last verse of Psalm 119 sorts before Psalm 120:1 under the intended key |

## Left out

- Reading the TSV file, the byte-order mark and header checks, the column-count warning, the summary text and the emission of the Rust source text are I/O and are not modelled. `Build` returns the data the script would print.
- Escaping in the generated source is not modelled. A cell holding a double quote would break the generated Rust source; such a cell is not considered.
- The `phf` perfect hash itself is not modelled. Each map is a Dafny `map<string, nat>`, and a repeated key, which fails the compilation of the generated source, is `DuplicateKey`.
- Full Unicode upper-casing is not modelled, because the model's `Upper` maps only the ASCII letters a-z. Python's `str.upper` and Rust's `to_uppercase` change more characters.
- Numeric cells (`BOSReferenceNumber`, `CCELNumber` and the like) keep their text. The script splices them unparsed into the generated source, and the Rust compiler's reading of them as `u16` is not modelled.
- `build.rs` is not modelled, because it only runs the Python script.
- `load_from_json` and the serde deserialisation in `Rust/src/lib.rs` are not modelled: they read the file system. The dictionaries are parameters.
- The PyO3 binding `Rust/bos_books_codes_py/src/lib.rs` is not part of this model. It passes calls through.
- The benchmarks and `JavaScript/test.js` are not part of this model.
- The JavaScript functions that cannot run as written are not modelled:
  - `getBBBFromText`;
  - the `getBBBFromUSFMAbbreviation`-style lookups that call `.upper()`;
  - `continuesThroughChapters` and `isDeuterocanon_NR`, which use `in` on arrays;
  - `getAllUSFMBooksCodes` and `getAllOSISBooksCodes`;
  - the triple de-duplication;
  - `sortBCVReferences`, which calls an undefined `sorted`;
  - `toString`.
- The plain single-field JavaScript getters (`getBookName`, `getCCELNumber` and the like) are not modelled; they only read a field.
- The corrected sort key uses base 1000 for both chapters and verses. The source does not say which bases were meant; any bases above 150 chapters and 176 verses would serve.
- JavaScript numbers are modelled as unbounded integers or `NaN`. Floating-point rounding beyond 2^53 is not modelled.
- JavaScript `console.assert` only logs, so the assertions in `getSequenceList` have no effect. They are not modelled.
- In the JavaScript helpers, an inherited `Object.prototype` name is modelled as a valid code only in `isValidBBB` and `contains`. The other helpers treat such a name as a missing book.
- The value arguments of the JavaScript helpers are strings. Arguments of other types, such as numbers for `C` and `V`, are not modelled.
- BooksCodesJs.SequenceList: for `null` or `undefined`, JavaScript returns the stored sequence array itself, so a caller that changes the result changes the table; the model returns the sequence as a value and does not model that aliasing.
- BooksCodesJs.EnglishName: its contract states only when it fails. That it is the first element of the list is stated by `EnglishNameIsFirstOfList`.
- BookTable.Build: it carries no contract of its own. Its failures are stated by `BuildFailsInLoop`, for the script's assertions and in terms of the rows, and by `AssembleSucceeds`, for a repeated map key and in terms of the loop's key lists. A repeated map key is restated in terms of the rows only for the uppercase map (`UppercaseCollisionFails`). Its successes are stated by the `BuildProperties` lemmas.

## Findings

| source | as written | input that shows it | evidently intended | confidence | as-written member | corrected member |
|---|---|---|---|---|---|---|
| Rust/bos_books_codes/build_static_tables.py:167-168 | the uniqueness assertion looks for the raw abbreviation among the quoted strings `"GEN"` collected so far, so it never fires | two rows with reference abbreviation `GEN` | reject an abbreviation an earlier row already has (the repeat is otherwise caught only when `phf_map!` compiles) | not executed | BookTable.ReferenceGuardAsWrittenNeverFires | BookTable.ReferenceGuard |
| JavaScript/BibleBooksCodes.js:731-737 | `BBB[2].isdigit()` calls a Python method that JavaScript strings lack, so every call throws | `tidyBBB("SA1")` | `SA1` becomes `1SA`; codes without a digit in position 2 are unchanged | not executed | BooksCodesJs.TidyBbbAsWritten | BooksCodesJs.TidyBbb |
| JavaScript/BibleBooksCodes.js:572-579 | `[BBB, C, V] = tuple` never throws, so the suffix is always `""` and a four-element reference's suffix is ignored | `["GEN", "1", "1", "a"]` and `["GEN", "1", "1", "b"]` get the same key | the suffix `a`/`b` counts 0/1 in the last place of the key | not executed | BooksCodesJs.AsWrittenIgnoresSuffix | BooksCodesJs.BcvReferenceToInt |
| JavaScript/BibleBooksCodes.js:594-608 | chapters are packed in base 100 and verses in base 150, but Psalms has 150 chapters and Psalm 119 has 176 verses, so keys collide and misorder | Psalm 101:1 gets the key of verse 1:1 of book 20; Psalm 119:151 gets the key of Psalm 120:1 | distinct references get distinct keys in reference order | not executed | BooksCodesJs.PsalmsCollide | BooksCodesJs.SortKeyOrder |
| JavaScript/BibleBooksCodes.js:59-78 | `BBB in dict` is also true for names inherited from `Object.prototype` | `isValidBBB("toString")` is true | true exactly for the codes in the table | not executed | BooksCodesJs.InheritedNameCountsAsValid | BooksCodesJs.IsValidBbb |

=== FILE: book_table.dfy ===
/** The offline table compiler (`build_static_tables.py`): the per-row loop
    that turns the TSV rows into the array of book entries and the five
    string-keyed index maps, followed by the `phf_map!` construction, which
    refuses a repeated key. Reading the file, the header checks and the
    emission of Rust source text are not modelled; what is modelled is the
    value those steps denote, as a pure function of the rows. */
module BookTable {
  import opened Wrappers
  import opened Text

  /** One data line of the TSV table: one string per column, in header order,
      the empty string for an empty cell. */
  datatype Row = Row(
    originalLanguageCode: string,
    bookName: string,
    bookNameEnglishGuide: string,
    bosReferenceAbbreviation: string,
    bosReferenceNumber: string,
    bosSequenceNumber: string,
    expectedChapters: string,
    shortAbbreviation: string,
    sblAbbreviation: string,
    osisAbbreviation: string,
    swordAbbreviation: string,
    ccelNumber: string,
    usfmAbbreviation: string,
    usfmNumber: string,
    usxNumber: string,
    unboundCode: string,
    bibleditNumber: string,
    logosNumber: string,
    logosAbbreviation: string,
    netBibleAbbreviation: string,
    drupalBibleAbbreviation: string,
    bibleWorksAbbreviation: string,
    byzantineAbbreviation: string,
    possibleAlternativeAbbreviations: string,
    possibleAlternativeBooksCodes: string,
    consistsOfBooks: string,
    typicalSection: string,
    typicalSubsection: string,
    allEnglishDerivedAbbreviations: string)

  /** The generated `OptionalNumberOrTwoNumbers` enum. The numbers keep the
      text of the cell: the generator splices them into the Rust source, and
      the Rust compiler, not the generator, reads them as `u16` literals.
      `NoNumber` is the enum's `None` variant. */
  datatype OptionalNumberOrTwoNumbers =
    | Number(number: string)
    | TwoNumbers(first: string, second: string)
    | NoNumber

  /** One element of the generated `BIBLE_BOOKS_CODES_ARRAY`. Numeric fields
      keep the text of their cell, as above. */
  datatype Entry = Entry(
    originalLanguageCode: string,
    originalLanguageBookName: string,
    bookNameEnglishGuide: string,
    bosReferenceAbbreviation: string,
    bosReferenceNumber: string,
    bosSequenceNumber: string,
    expectedNumChapters: OptionalNumberOrTwoNumbers,
    shortAbbreviation: Option<string>,
    sblAbbreviation: Option<string>,
    osisAbbreviation: Option<string>,
    swordAbbreviation: Option<string>,
    ccelNumber: Option<string>,
    usfmAbbreviation: Option<string>,
    usfmNumberStr: Option<string>,
    usxNumberStr: Option<string>,
    unboundCode: Option<string>,
    bibleditNumber: Option<string>,
    logosNumber: Option<string>,
    logosAbbreviation: Option<string>,
    netBibleAbbreviation: Option<string>,
    drupalBibleAbbreviation: Option<string>,
    bibleWorksAbbreviation: Option<string>,
    byzantineAbbreviation: Option<string>,
    possibleAlternativeAbbreviations: seq<string>,
    possibleAlternativeBooksCodes: seq<string>,
    consistsOfBooksCodes: Option<string>,
    typicalSection: Option<string>,
    typicalSubsection: Option<string>,
    allEnglishDerivedAbbreviations: string)

  /** The static maps the generated library consults. */
  datatype TableName = ReferenceTable | UsfmTable | UppercaseUsfmTable | OsisTable | EnglishNameTable

  /** Why the generation fails: an `assert` of the script on the given data
      row, or `phf_map!` rejecting a repeated key when the output is compiled. */
  datatype BuildError =
    | TooManyChapterNumbers(row: nat)
    | DuplicateReference(row: nat, abbreviation: string)
    | DuplicateKey(table: TableName, key: string)

  /** The book array and the five index maps, each map sending a key to the
      index of its entry in `books`. */
  datatype Tables = Tables(
    books: seq<Entry>,
    referenceMap: map<string, nat>,
    usfmMap: map<string, nat>,
    uppercaseUsfmMap: map<string, nat>,
    osisMap: map<string, nat>,
    englishNameMap: map<string, nat>)
  {
    /** Every index stored in a map names an element of `books`: the
        resolvers index the array with it and cannot go out of bounds. */
    predicate Valid() {
      && (forall k :: k in referenceMap ==> referenceMap[k] < |books|)
      && (forall k :: k in usfmMap ==> usfmMap[k] < |books|)
      && (forall k :: k in uppercaseUsfmMap ==> uppercaseUsfmMap[k] < |books|)
      && (forall k :: k in osisMap ==> osisMap[k] < |books|)
      && (forall k :: k in englishNameMap ==> englishNameMap[k] < |books|)
    }
  }

  // ---------------------------------------------------------------------
  // Encoding one row
  // ---------------------------------------------------------------------

  /** An optional field: `None` for an empty cell, `Some(cell)` otherwise. */
  function OptionalCell(cell: string): (o: Option<string>)
    ensures o.None? <==> cell == ""
  {
    if cell == "" then None else Some(cell)
  }

  /** The cell an optional field came from. */
  function CellOf(o: Option<string>): string {
    match o
    case None => ""
    case Some(s) => s
  }

  lemma OptionalCellRoundTrip(cell: string, o: Option<string>)
    ensures CellOf(OptionalCell(cell)) == cell
    ensures o != Some("") ==> OptionalCell(CellOf(o)) == o
  {
  }

  /** The `expectedChapters` cell: empty gives `NoNumber`; more than one comma
      fails the script's assertion; one comma gives the two numbers around it;
      otherwise the single number. */
  function EncodeChapters(cell: string, row: nat): (r: Result<OptionalNumberOrTwoNumbers, BuildError>)
    ensures r.Err? <==> CountChar(cell, ',') > 1
    ensures r.Err? ==> r.error == TooManyChapterNumbers(row)
    ensures r.Ok? ==> (r.value.NoNumber? <==> cell == "")
    ensures r.Ok? ==> (r.value.TwoNumbers? <==> ',' in cell)
    ensures r.Ok? && r.value.TwoNumbers? ==> ',' !in r.value.first && ',' !in r.value.second
  {
    if cell == "" then
      Ok(NoNumber)
    else if CountChar(cell, ',') > 1 then
      Err(TooManyChapterNumbers(row))
    else if ',' in cell then
      var first := TakeUntil(cell, ',');
      var second := cell[|first| + 1..];
      assert ',' !in second by {
        CommaCountSplit(cell, first);
      }
      Ok(TwoNumbers(first, second))
    else
      Ok(Number(cell))
  }

  /** After the first comma of a cell with at most one comma there is none. */
  lemma CommaCountSplit(cell: string, first: string)
    requires first == TakeUntil(cell, ',') && |first| < |cell|
    requires CountChar(cell, ',') <= 1
    ensures ',' !in cell[|first| + 1..]
  {
    var rest := cell[|first|..];
    assert cell == first + rest;
    CountCharAppend(first, rest);
    CountCharZero(first);
    CommaHead(rest);
    CountCharPositive(rest[1..], ',');
  }

  /** A leading comma counts once. */
  lemma CommaHead(rest: string)
    requires |rest| > 0 && rest[0] == ','
    ensures CountChar(rest, ',') == 1 + CountChar(rest[1..], ',')
  {
  }

  lemma {:induction false} CountCharAppend(a: string, b: string)
    ensures CountChar(a + b, ',') == CountChar(a, ',') + CountChar(b, ',')
    decreases |a|
  {
    if |a| == 0 {
      assert a + b == b;
    } else {
      assert (a + b)[0] == a[0];
      assert (a + b)[1..] == a[1..] + b;
      CountCharAppend(a[1..], b);
      assert CountChar(a + b, ',') == (if a[0] == ',' then 1 else 0) + CountChar(a[1..] + b, ',');
    }
  }

  lemma {:induction false} CountCharZero(s: string)
    requires ',' !in s
    ensures CountChar(s, ',') == 0
    decreases |s|
  {
    if |s| > 0 {
      CountCharZero(s[1..]);
    }
  }

  lemma {:induction false} CountCharPositive(s: string, c: char)
    requires CountChar(s, c) == 0
    ensures c !in s
    decreases |s|
  {
    if |s| > 0 {
      CountCharPositive(s[1..], c);
    }
  }

  /** The cell an encoded chapter count came from. */
  function ChaptersCell(e: OptionalNumberOrTwoNumbers): string {
    match e
    case NoNumber => ""
    case Number(n) => n
    case TwoNumbers(a, b) => a + [','] + b
  }

  /** The encoding of the chapter cell loses nothing. */
  lemma ChaptersRoundTrip(cell: string, row: nat)
    requires EncodeChapters(cell, row).Ok?
    ensures ChaptersCell(EncodeChapters(cell, row).value) == cell
  {
    if cell != "" && ',' in cell {
      var first := TakeUntil(cell, ',');
      assert cell == first + [','] + cell[|first| + 1..];
    }
  }

  /** The emitted `possible_alternative_books_codes` slice: empty for an empty
      cell, the comma-separated pieces otherwise. (The alternative
      abbreviations are split even when empty, giving `[""]`.) */
  function BooksCodesList(cell: string): (list: seq<string>)
    ensures list == [] <==> cell == ""
  {
    if cell == "" then [] else Split(cell, ',')
  }

  /** One array entry, field by field as the script prints it. */
  function EncodeRow(row: Row, n: nat): (r: Result<Entry, BuildError>)
    ensures r.Err? <==> CountChar(row.expectedChapters, ',') > 1
    ensures r.Ok? ==> r.value.bosReferenceAbbreviation == row.bosReferenceAbbreviation
    ensures r.Ok? ==> r.value.usfmAbbreviation == OptionalCell(row.usfmAbbreviation)
    ensures r.Ok? ==> r.value.osisAbbreviation == OptionalCell(row.osisAbbreviation)
  {
    var chapters :- EncodeChapters(row.expectedChapters, n);
    Ok(Entry(
      row.originalLanguageCode,
      row.bookName,
      row.bookNameEnglishGuide,
      row.bosReferenceAbbreviation,
      row.bosReferenceNumber,
      row.bosSequenceNumber,
      chapters,
      OptionalCell(row.shortAbbreviation),
      OptionalCell(row.sblAbbreviation),
      OptionalCell(row.osisAbbreviation),
      OptionalCell(row.swordAbbreviation),
      OptionalCell(row.ccelNumber),
      OptionalCell(row.usfmAbbreviation),
      OptionalCell(row.usfmNumber),
      OptionalCell(row.usxNumber),
      OptionalCell(row.unboundCode),
      OptionalCell(row.bibleditNumber),
      OptionalCell(row.logosNumber),
      OptionalCell(row.logosAbbreviation),
      OptionalCell(row.netBibleAbbreviation),
      OptionalCell(row.drupalBibleAbbreviation),
      OptionalCell(row.bibleWorksAbbreviation),
      OptionalCell(row.byzantineAbbreviation),
      Split(row.possibleAlternativeAbbreviations, ','),
      BooksCodesList(row.possibleAlternativeBooksCodes),
      OptionalCell(row.consistsOfBooks),
      OptionalCell(row.typicalSection),
      OptionalCell(row.typicalSubsection),
      row.allEnglishDerivedAbbreviations))
  }

  /** The row an entry was printed from. */
  function DecodeEntry(e: Entry): Row {
    Row(
      e.originalLanguageCode,
      e.originalLanguageBookName,
      e.bookNameEnglishGuide,
      e.bosReferenceAbbreviation,
      e.bosReferenceNumber,
      e.bosSequenceNumber,
      ChaptersCell(e.expectedNumChapters),
      CellOf(e.shortAbbreviation),
      CellOf(e.sblAbbreviation),
      CellOf(e.osisAbbreviation),
      CellOf(e.swordAbbreviation),
      CellOf(e.ccelNumber),
      CellOf(e.usfmAbbreviation),
      CellOf(e.usfmNumberStr),
      CellOf(e.usxNumberStr),
      CellOf(e.unboundCode),
      CellOf(e.bibleditNumber),
      CellOf(e.logosNumber),
      CellOf(e.logosAbbreviation),
      CellOf(e.netBibleAbbreviation),
      CellOf(e.drupalBibleAbbreviation),
      CellOf(e.bibleWorksAbbreviation),
      CellOf(e.byzantineAbbreviation),
      Join(e.possibleAlternativeAbbreviations, ','),
      Join(e.possibleAlternativeBooksCodes, ','),
      CellOf(e.consistsOfBooksCodes),
      CellOf(e.typicalSection),
      CellOf(e.typicalSubsection),
      e.allEnglishDerivedAbbreviations)
  }

  /** Every cell of a row can be read back from its array entry: each
      optional field is `None` exactly for an empty cell and holds the cell
      otherwise, and the list fields split without loss. */
  lemma EncodeRowRoundTrip(row: Row, n: nat)
    requires EncodeRow(row, n).Ok?
    ensures DecodeEntry(EncodeRow(row, n).value) == row
  {
    ChaptersRoundTrip(row.expectedChapters, n);
    JoinSplit(row.possibleAlternativeAbbreviations, ',');
    JoinSplit(row.possibleAlternativeBooksCodes, ',');
  }

  // ---------------------------------------------------------------------
  // The per-row loop
  // ---------------------------------------------------------------------

  /** The columns whose maps keep the first row per abbreviation. */
  datatype Column = UsfmColumn | OsisColumn

  function Cell(row: Row, column: Column): string {
    match column
    case UsfmColumn => row.usfmAbbreviation
    case OsisColumn => row.osisAbbreviation
  }

  /** Row `i` is the first row whose `column` cell is `key`. */
  predicate IsFirstWith(rows: seq<Row>, column: Column, i: nat, key: string) {
    && i < |rows|
    && Cell(rows[i], column) == key
    && forall j :: 0 <= j < i ==> Cell(rows[j], column) != key
  }

  function KeySet(entries: seq<(string, nat)>): set<string> {
    set i | 0 <= i < |entries| :: entries[i].0
  }

  predicate DistinctKeys(entries: seq<(string, nat)>) {
    forall i, j :: 0 <= i < j < |entries| ==> entries[i].0 != entries[j].0
  }

  /** The script's dictionary update for the USFM and OSIS columns: an empty
      cell or an abbreviation already present leaves the entries alone,
      otherwise the abbreviation is added with this row's index. */
  function FirstWins(entries: seq<(string, nat)>, key: string, n: nat): (r: seq<(string, nat)>)
    ensures DistinctKeys(entries) ==> DistinctKeys(r)
    ensures KeySet(r) == if key == "" then KeySet(entries) else KeySet(entries) + {key}
    ensures forall p :: p in r <==> p in entries || (p == (key, n) && key != "" && key !in KeySet(entries))
  {
    if key == "" || key in KeySet(entries) then entries
    else
      var r := entries + [(key, n)];
      assert KeySet(r) == KeySet(entries) + {key} by {
        assert forall i :: 0 <= i < |entries| ==> r[i] == entries[i];
        assert r[|entries|].0 == key;
      }
      r
  }

  /** One `(name, n)` pair per comma-separated English form of row `n`. */
  function EnglishPairs(names: seq<string>, n: nat): (r: seq<(string, nat)>)
    ensures |r| == |names|
    ensures forall i :: 0 <= i < |names| ==> r[i] == (names[i], n)
  {
    seq(|names|, i requires 0 <= i < |names| => (names[i], n))
  }

  /** What the loop has accumulated after some rows: the array entries, the
      reference abbreviations, the English-name pairs and the first-wins
      USFM and OSIS dictionaries (in insertion order). */
  datatype Collected = Collected(
    entries: seq<Entry>,
    referenceAbbreviations: seq<string>,
    englishEntries: seq<(string, nat)>,
    usfmEntries: seq<(string, nat)>,
    osisEntries: seq<(string, nat)>)

  /** The state after the rows so far: every row encoded in place, the
      reference abbreviations listed in row order without repetition, the
      English pairs exactly those of the rows, and the first-wins
      dictionaries holding exactly the first row for each non-empty cell. */
  ghost predicate CollectedFrom(c: Collected, rows: seq<Row>) {
    && |c.entries| == |rows|
    && (forall i :: 0 <= i < |rows| ==> EncodeRow(rows[i], i) == Ok(c.entries[i]))
    && |c.referenceAbbreviations| == |rows|
    && (forall i :: 0 <= i < |rows| ==> c.referenceAbbreviations[i] == rows[i].bosReferenceAbbreviation)
    && (forall i, j :: 0 <= i < j < |rows| ==> c.referenceAbbreviations[i] != c.referenceAbbreviations[j])
    && EnglishFrom(c.englishEntries, rows)
    && FirstWinsFrom(c.usfmEntries, rows, UsfmColumn)
    && FirstWinsFrom(c.osisEntries, rows, OsisColumn)
  }

  /** The English pairs are exactly one `(name, i)` per comma-separated
      English form `name` of row `i`. */
  ghost predicate EnglishFrom(entries: seq<(string, nat)>, rows: seq<Row>) {
    forall p: (string, nat) :: p in entries <==> p.1 < |rows| && p.0 in Split(rows[p.1].allEnglishDerivedAbbreviations, ',')
  }

  ghost predicate FirstWinsFrom(entries: seq<(string, nat)>, rows: seq<Row>, column: Column) {
    && DistinctKeys(entries)
    && forall p :: p in entries <==> p.0 != "" && IsFirstWith(rows, column, p.1, p.0)
  }

  /** The loop body for data row `n`: the chapter assertion, the entry, the
      (corrected, see `ReferenceGuard`) uniqueness assertion on the reference
      abbreviation, then the English, USFM and OSIS updates. */
  function Step(c: Collected, row: Row, n: nat): (r: Result<Collected, BuildError>)
    ensures r.Err? <==> CountChar(row.expectedChapters, ',') > 1 || row.bosReferenceAbbreviation in c.referenceAbbreviations
    ensures r.Err? ==> !r.error.DuplicateKey? && r.error.row == n
  {
    var entry :- EncodeRow(row, n);
    if !ReferenceGuard(c.referenceAbbreviations, row.bosReferenceAbbreviation) then
      Err(DuplicateReference(n, row.bosReferenceAbbreviation))
    else
      Ok(Collected(
        c.entries + [entry],
        c.referenceAbbreviations + [row.bosReferenceAbbreviation],
        c.englishEntries + EnglishPairs(Split(row.allEnglishDerivedAbbreviations, ','), n),
        FirstWins(c.usfmEntries, row.usfmAbbreviation, n),
        FirstWins(c.osisEntries, row.osisAbbreviation, n)))
  }

  /** Row `i` stops the loop: its chapters cell holds two commas or more,
      or an earlier row has its reference abbreviation. */
  predicate RowRejected(rows: seq<Row>, i: int) {
    && 0 <= i < |rows|
    && (|| CountChar(rows[i].expectedChapters, ',') > 1
        || exists j :: 0 <= j < i && rows[j].bosReferenceAbbreviation == rows[i].bosReferenceAbbreviation)
  }

  /** The loop over all data rows; the first failing row stops it. */
  function Collect(rows: seq<Row>): (r: Result<Collected, BuildError>)
    ensures r.Ok? ==> CollectedFrom(r.value, rows)
    decreases |rows|
  {
    if |rows| == 0 then
      Ok(Collected([], [], [], [], []))
    else
      var n := |rows| - 1;
      var c :- Collect(rows[..n]);
      var r := Step(c, rows[n], n);
      if r.Ok? then
        SplitLast(rows);
        StepExtends(c, rows[..n], rows[n], rows);
        r
      else
        r
  }

  /** A passing step on the last row extends the description of the rows
      before it to all of `rows`. */
  lemma StepExtends(c: Collected, front: seq<Row>, row: Row, rows: seq<Row>)
    requires rows == front + [row] && CollectedFrom(c, front)
    requires Step(c, row, |front|).Ok?
    ensures CollectedFrom(Step(c, row, |front|).value, rows)
  {
    StepPreserves(c, front, row);
  }

  /** A non-empty sequence is its front followed by its last element. */
  lemma SplitLast<T>(s: seq<T>)
    requires |s| > 0
    ensures s == s[..|s| - 1] + [s[|s| - 1]]
  {
  }

  /** The loop fails exactly when some row is rejected, and then on the
      first such row, with one of the two assertion errors. */
  lemma {:induction false} CollectFails(rows: seq<Row>)
    ensures Collect(rows).Err? <==> exists i :: RowRejected(rows, i)
    ensures Collect(rows).Err? ==>
              var e := Collect(rows).error;
              && !e.DuplicateKey? && RowRejected(rows, e.row)
              && forall i :: 0 <= i < e.row ==> !RowRejected(rows, i)
    decreases |rows|
  {
    if |rows| > 0 {
      var n := |rows| - 1;
      var front := rows[..n];
      CollectFails(front);
      match Collect(front)
      case Err(e) =>
        FrontFails(rows, front, e);
      case Ok(c) =>
        FrontPasses(rows, front, c);
    }
  }

  /** When the rows before the last already fail, the loop fails with the
      same error, and the rows it names keep their status. */
  lemma FrontFails(rows: seq<Row>, front: seq<Row>, e: BuildError)
    requires |rows| > 0 && front == rows[..|rows| - 1] && Collect(front) == Err(e)
    requires !e.DuplicateKey? && RowRejected(front, e.row)
    requires forall i :: 0 <= i < e.row ==> !RowRejected(front, i)
    ensures Collect(rows) == Err(e)
    ensures Collect(rows).Err? <==> exists i :: RowRejected(rows, i)
    ensures Collect(rows).Err? ==>
              var e := Collect(rows).error;
              && !e.DuplicateKey? && RowRejected(rows, e.row)
              && forall i :: 0 <= i < e.row ==> !RowRejected(rows, i)
  {
    RejectedFront(rows, front);
    assert RowRejected(rows, e.row);
  }

  /** When the rows before the last pass, the loop's outcome is the last
      step's, which fails exactly when the last row is rejected. */
  lemma FrontPasses(rows: seq<Row>, front: seq<Row>, c: Collected)
    requires |rows| > 0 && front == rows[..|rows| - 1] && Collect(front) == Ok(c)
    requires forall i :: !RowRejected(front, i)
    ensures Collect(rows) == Step(c, rows[|rows| - 1], |rows| - 1)
    ensures Collect(rows).Err? <==> exists i :: RowRejected(rows, i)
    ensures Collect(rows).Err? ==>
              var e := Collect(rows).error;
              && !e.DuplicateKey? && RowRejected(rows, e.row)
              && forall i :: 0 <= i < e.row ==> !RowRejected(rows, i)
  {
    CollectLast(rows, front, c);
    OnlyLastRejected(rows, front);
    LastRowRejected(c, rows);
  }

  /** With the rows before the last passing, the loop ends with the last
      step. */
  lemma CollectLast(rows: seq<Row>, front: seq<Row>, c: Collected)
    requires |rows| > 0 && front == rows[..|rows| - 1] && Collect(front) == Ok(c)
    ensures Collect(rows) == Step(c, rows[|rows| - 1], |rows| - 1)
  {
  }

  /** When no row before the last is rejected, only the last one can be. */
  lemma OnlyLastRejected(rows: seq<Row>, front: seq<Row>)
    requires |rows| > 0 && front == rows[..|rows| - 1]
    requires forall i :: !RowRejected(front, i)
    ensures forall i :: 0 <= i < |rows| - 1 ==> !RowRejected(rows, i)
    ensures (exists i :: RowRejected(rows, i)) <==> RowRejected(rows, |rows| - 1)
  {
    RejectedFront(rows, front);
  }

  /** Rejection of a row depends only on the rows up to it. */
  lemma RejectedFront(rows: seq<Row>, front: seq<Row>)
    requires |rows| > 0 && front == rows[..|rows| - 1]
    ensures forall i :: 0 <= i < |front| ==> (RowRejected(front, i) <==> RowRejected(rows, i))
  {
    forall i | 0 <= i < |front|
      ensures RowRejected(front, i) <==> RowRejected(rows, i)
    {
      assert forall j :: 0 <= j <= i ==> front[j] == rows[j];
    }
  }

  /** The last row is rejected exactly when its step fails. */
  lemma LastRowRejected(c: Collected, rows: seq<Row>)
    requires |rows| > 0 && CollectedFrom(c, rows[..|rows| - 1])
    ensures Step(c, rows[|rows| - 1], |rows| - 1).Err? <==> RowRejected(rows, |rows| - 1)
  {
    var n := |rows| - 1;
    var a := rows[n].bosReferenceAbbreviation;
    if a in c.referenceAbbreviations {
      var j :| 0 <= j < n && c.referenceAbbreviations[j] == a;
      assert rows[..n][j] == rows[j];
    }
    if exists j :: 0 <= j < n && rows[j].bosReferenceAbbreviation == a {
      var j :| 0 <= j < n && rows[j].bosReferenceAbbreviation == a;
      assert rows[..n][j] == rows[j];
      assert c.referenceAbbreviations[j] == a;
    }
  }

  lemma StepPreserves(c: Collected, rows: seq<Row>, row: Row)
    requires CollectedFrom(c, rows)
    requires Step(c, row, |rows|).Ok?
    ensures CollectedFrom(Step(c, row, |rows|).value, rows + [row])
  {
    var n := |rows|;
    var c' := Step(c, row, n).value;
    ArraysStep(c, rows, row);
    assert c'.englishEntries == c.englishEntries + EnglishPairs(Split(row.allEnglishDerivedAbbreviations, ','), n);
    assert c'.usfmEntries == FirstWins(c.usfmEntries, Cell(row, UsfmColumn), n);
    assert c'.osisEntries == FirstWins(c.osisEntries, Cell(row, OsisColumn), n);
    EnglishStep(c.englishEntries, rows, row);
    FirstWinsStep(c.usfmEntries, rows, row, UsfmColumn);
    FirstWinsStep(c.osisEntries, rows, row, OsisColumn);
  }

  /** A passing step appends the row's entry and its reference abbreviation,
      which is new. */
  lemma ArraysStep(c: Collected, rows: seq<Row>, row: Row)
    requires |c.entries| == |rows| && forall i :: 0 <= i < |rows| ==> EncodeRow(rows[i], i) == Ok(c.entries[i])
    requires |c.referenceAbbreviations| == |rows|
    requires forall i :: 0 <= i < |rows| ==> c.referenceAbbreviations[i] == rows[i].bosReferenceAbbreviation
    requires forall i, j :: 0 <= i < j < |rows| ==> c.referenceAbbreviations[i] != c.referenceAbbreviations[j]
    requires Step(c, row, |rows|).Ok?
    ensures var c', rows' := Step(c, row, |rows|).value, rows + [row];
      && |c'.entries| == |rows'|
      && (forall i :: 0 <= i < |rows'| ==> EncodeRow(rows'[i], i) == Ok(c'.entries[i]))
      && |c'.referenceAbbreviations| == |rows'|
      && (forall i :: 0 <= i < |rows'| ==> c'.referenceAbbreviations[i] == rows'[i].bosReferenceAbbreviation)
      && (forall i, j :: 0 <= i < j < |rows'| ==> c'.referenceAbbreviations[i] != c'.referenceAbbreviations[j])
  {
    var n := |rows|;
    var c' := Step(c, row, n).value;
    assert c'.entries == c.entries + [EncodeRow(row, n).value];
    EntriesStep(c.entries, rows, row, c'.entries);
    assert c'.referenceAbbreviations == c.referenceAbbreviations + [row.bosReferenceAbbreviation];
    assert row.bosReferenceAbbreviation !in c.referenceAbbreviations;
    ReferencesStep(c.referenceAbbreviations, rows, row, c'.referenceAbbreviations);
  }

  lemma EntriesStep(entries: seq<Entry>, rows: seq<Row>, row: Row, entries': seq<Entry>)
    requires |entries| == |rows| && forall i :: 0 <= i < |rows| ==> EncodeRow(rows[i], i) == Ok(entries[i])
    requires EncodeRow(row, |rows|).Ok? && entries' == entries + [EncodeRow(row, |rows|).value]
    ensures |entries'| == |rows| + 1
    ensures forall i :: 0 <= i < |rows| + 1 ==> EncodeRow((rows + [row])[i], i) == Ok(entries'[i])
  {
    var rows' := rows + [row];
    assert forall i :: 0 <= i < |rows| ==> rows'[i] == rows[i] && entries'[i] == entries[i];
  }

  lemma ReferencesStep(codes: seq<string>, rows: seq<Row>, row: Row, codes': seq<string>)
    requires |codes| == |rows| && forall i :: 0 <= i < |rows| ==> codes[i] == rows[i].bosReferenceAbbreviation
    requires forall i, j :: 0 <= i < j < |rows| ==> codes[i] != codes[j]
    requires row.bosReferenceAbbreviation !in codes && codes' == codes + [row.bosReferenceAbbreviation]
    ensures |codes'| == |rows| + 1
    ensures forall i :: 0 <= i < |rows| + 1 ==> codes'[i] == (rows + [row])[i].bosReferenceAbbreviation
    ensures forall i, j :: 0 <= i < j < |rows| + 1 ==> codes'[i] != codes'[j]
  {
    var rows' := rows + [row];
    assert forall i :: 0 <= i < |rows| ==> rows'[i] == rows[i] && codes'[i] == codes[i];
    forall i, j | 0 <= i < j < |rows| + 1
      ensures codes'[i] != codes'[j]
    {
      if j == |rows| {
        assert codes[i] in codes;
      }
    }
  }

  lemma EnglishStep(entries: seq<(string, nat)>, rows: seq<Row>, row: Row)
    requires EnglishFrom(entries, rows)
    ensures EnglishFrom(entries + EnglishPairs(Split(row.allEnglishDerivedAbbreviations, ','), |rows|), rows + [row])
  {
    var n := |rows|;
    var rows' := rows + [row];
    var names := Split(row.allEnglishDerivedAbbreviations, ',');
    var pairs := EnglishPairs(names, n);
    forall p: (string, nat)
      ensures p in entries + pairs <==> p.1 < |rows'| && p.0 in Split(rows'[p.1].allEnglishDerivedAbbreviations, ',')
    {
      if p.1 < n {
        assert rows'[p.1] == rows[p.1];
        assert p !in pairs;
      } else if p.1 == n && p.0 in names {
        var i :| 0 <= i < |names| && names[i] == p.0;
        assert pairs[i] == p;
      }
    }
  }

  lemma FirstWinsStep(entries: seq<(string, nat)>, rows: seq<Row>, row: Row, column: Column)
    requires FirstWinsFrom(entries, rows, column)
    ensures FirstWinsFrom(FirstWins(entries, Cell(row, column), |rows|), rows + [row], column)
  {
    var n := |rows|;
    var rows' := rows + [row];
    var key := Cell(row, column);
    var r := FirstWins(entries, key, n);
    assert forall i :: 0 <= i < n ==> rows'[i] == rows[i];
    forall p: (string, nat)
      ensures p in r <==> p.0 != "" && IsFirstWith(rows', column, p.1, p.0)
    {
      if p.1 < n {
        assert IsFirstWith(rows', column, p.1, p.0) <==> IsFirstWith(rows, column, p.1, p.0);
      } else if p.1 == n && key != "" && p.0 == key {
        if key in KeySet(entries) {
          var i :| 0 <= i < |entries| && entries[i].0 == key;
          assert entries[i] in entries;
          assert !IsFirstWith(rows', column, n, key) by {
            assert rows'[entries[i].1] == rows[entries[i].1];
          }
        } else {
          forall j | 0 <= j < n
            ensures Cell(rows'[j], column) != key
          {
            KeyPresent(entries, rows, column, key, j);
          }
        }
      }
    }
  }

  /** A non-empty cell of an earlier row is already a key of the entries. */
  lemma KeyPresent(entries: seq<(string, nat)>, rows: seq<Row>, column: Column, key: string, j: nat)
    requires FirstWinsFrom(entries, rows, column) && key != "" && j < |rows|
    ensures Cell(rows[j], column) == key ==> key in KeySet(entries)
  {
    if Cell(rows[j], column) == key {
      var k := FirstIndex(rows, column, key, j);
      assert (key, k) in entries;
      var i :| 0 <= i < |entries| && entries[i] == (key, k);
      assert entries[i].0 == key;
    }
  }

  /** The first row whose `column` cell is `key`, given one at `j`. */
  lemma FirstIndex(rows: seq<Row>, column: Column, key: string, j: nat) returns (k: nat)
    requires j < |rows| && Cell(rows[j], column) == key
    ensures k <= j && IsFirstWith(rows, column, k, key)
    decreases j
  {
    var i := 0;
    while i < j && Cell(rows[i], column) != key
      invariant i <= j
      invariant forall m :: 0 <= m < i ==> Cell(rows[m], column) != key
    {
      i := i + 1;
    }
    k := i;
  }

  /** The uniqueness check on the reference abbreviation, comparing like
      with like: it passes exactly when no earlier row has the abbreviation. */
  function ReferenceGuard(earlier: seq<string>, abbreviation: string): (pass: bool)
    ensures pass <==> forall i :: 0 <= i < |earlier| ==> earlier[i] != abbreviation
  {
    abbreviation !in earlier
  }

  /** A string as the script writes it into the generated source: between
      double quotes. */
  function Quote(s: string): (q: string)
    ensures |q| == |s| + 2 && q[0] == '"'
  {
    ['"'] + s + ['"']
  }

  function QuoteAll(abbreviations: seq<string>): (q: seq<string>)
    ensures |q| == |abbreviations|
    ensures forall i :: 0 <= i < |q| ==> q[i] == Quote(abbreviations[i])
  {
    seq(|abbreviations|, i requires 0 <= i < |abbreviations| => Quote(abbreviations[i]))
  }

  /** The uniqueness check as the script writes it: the raw abbreviation is
      looked for among the quoted strings collected so far. */
  function ReferenceGuardAsWritten(quotedEarlier: seq<string>, abbreviation: string): bool {
    abbreviation !in quotedEarlier
  }

  /** As written, the check passes for every abbreviation that does not
      itself start with a double quote, whatever rows came before: it can
      never reject a repeated reference abbreviation. */
  lemma ReferenceGuardAsWrittenNeverFires(earlier: seq<string>, abbreviation: string)
    requires |abbreviation| == 0 || abbreviation[0] != '"'
    ensures ReferenceGuardAsWritten(QuoteAll(earlier), abbreviation)
  {
    var quoted := QuoteAll(earlier);
    forall i | 0 <= i < |quoted|
      ensures quoted[i] != abbreviation
    {
      assert quoted[i][0] == '"';
    }
  }

  /** A second `GEN` row: the written check lets it through, the corrected
      one rejects it. */
  lemma RepeatedGenesisRow()
    ensures ReferenceGuardAsWritten(QuoteAll(["GEN"]), "GEN")
    ensures !ReferenceGuard(["GEN"], "GEN")
  {
    ReferenceGuardAsWrittenNeverFires(["GEN"], "GEN");
  }

  // ---------------------------------------------------------------------
  // The phf maps
  // ---------------------------------------------------------------------

  /** `phf_map!` over the emitted entries: a map from each key to its value,
      or a compile-time error when a key is repeated. */
  function PhfMap(table: TableName, entries: seq<(string, nat)>): (r: Result<map<string, nat>, BuildError>)
    ensures r.Ok? <==> DistinctKeys(entries)
    ensures r.Ok? ==> r.value.Keys == KeySet(entries)
    ensures r.Ok? ==> forall i :: 0 <= i < |entries| ==> r.value[entries[i].0] == entries[i].1
    ensures r.Err? ==> r.error.DuplicateKey? && r.error.table == table
    ensures r.Err? ==> exists i, j :: 0 <= i < j < |entries| && entries[i].0 == r.error.key && entries[j].0 == r.error.key
    decreases |entries|
  {
    if |entries| == 0 then
      Ok(map[])
    else
      var front := entries[..|entries| - 1];
      var prev := PhfMap(table, front);
      PhfAddLast(table, entries, front, prev);
      PhfAdd(table, prev, entries[|entries| - 1])
  }

  /** One insertion of `phf_map!`: a key already present is an error. */
  function PhfAdd(table: TableName, prev: Result<map<string, nat>, BuildError>, entry: (string, nat)): Result<map<string, nat>, BuildError> {
    var m :- prev;
    if entry.0 in m then Err(DuplicateKey(table, entry.0)) else Ok(m[entry.0 := entry.1])
  }

  /** Adding the last entry to the map of the entries before it gives the
      map of all the entries, or the error naming a repeated key. */
  lemma PhfAddLast(table: TableName, entries: seq<(string, nat)>, front: seq<(string, nat)>, prev: Result<map<string, nat>, BuildError>)
    requires |entries| > 0 && front == entries[..|entries| - 1]
    requires prev.Ok? <==> DistinctKeys(front)
    requires prev.Ok? ==> prev.value.Keys == KeySet(front)
    requires prev.Ok? ==> forall i :: 0 <= i < |front| ==> prev.value[front[i].0] == front[i].1
    requires prev.Err? ==> prev.error.DuplicateKey? && prev.error.table == table
    requires prev.Err? ==> exists i, j :: 0 <= i < j < |front| && front[i].0 == prev.error.key && front[j].0 == prev.error.key
    ensures var r := PhfAdd(table, prev, entries[|entries| - 1]);
      && (r.Ok? <==> DistinctKeys(entries))
      && (r.Ok? ==> r.value.Keys == KeySet(entries))
      && (r.Ok? ==> forall i :: 0 <= i < |entries| ==> r.value[entries[i].0] == entries[i].1)
      && (r.Err? ==> r.error.DuplicateKey? && r.error.table == table)
      && (r.Err? ==> exists i, j :: 0 <= i < j < |entries| && entries[i].0 == r.error.key && entries[j].0 == r.error.key)
  {
    var n := |entries| - 1;
    assert forall i :: 0 <= i < n ==> entries[i] == front[i];
    assert KeySet(entries) == KeySet(front) + {entries[n].0};
    if prev.Ok? && entries[n].0 in prev.value {
      var i :| 0 <= i < |front| && front[i].0 == entries[n].0;
      assert entries[i] == front[i];
    }
  }

  /** Over entries without a repeated key, `phf_map!` builds exactly the
      map that sends each key to its value. */
  lemma PhfMapExactly(table: TableName, entries: seq<(string, nat)>, m: map<string, nat>)
    requires DistinctKeys(entries)
    requires m.Keys == KeySet(entries)
    requires forall i :: 0 <= i < |entries| ==> m[entries[i].0] == entries[i].1
    ensures PhfMap(table, entries) == Ok(m)
  {
    var r := PhfMap(table, entries);
    assert r.Ok?;
    var built := r.value;
    assert built.Keys == m.Keys;
    forall k | k in m
      ensures built[k] == m[k]
    {
      var i :| 0 <= i < |entries| && entries[i].0 == k;
      assert built[entries[i].0] == entries[i].1;
    }
    assert built == m;
  }

  /** The reference map's entries: each abbreviation with its row index. */
  function IndexedEntries(keys: seq<string>): (r: seq<(string, nat)>)
    ensures |r| == |keys|
    ensures forall i :: 0 <= i < |keys| ==> r[i] == (keys[i], i)
  {
    seq(|keys|, i requires 0 <= i < |keys| => (keys[i], i))
  }

  /** The uppercase USFM map's entries: the USFM entries with keys upper-cased. */
  function UppercaseEntries(entries: seq<(string, nat)>): (r: seq<(string, nat)>)
    ensures |r| == |entries|
    ensures forall i :: 0 <= i < |entries| ==> r[i] == (Upper(entries[i].0), entries[i].1)
  {
    seq(|entries|, i requires 0 <= i < |entries| => (Upper(entries[i].0), entries[i].1))
  }

  /** The maps compile exactly when each of the five key lists is free of
      repeats; the array is the loop's entries. */
  lemma AssembleSucceeds(c: Collected)
    ensures Assemble(c).Ok? <==> && DistinctKeys(IndexedEntries(c.referenceAbbreviations))
                                 && DistinctKeys(c.usfmEntries)
                                 && DistinctKeys(UppercaseEntries(c.usfmEntries))
                                 && DistinctKeys(c.osisEntries)
                                 && DistinctKeys(c.englishEntries)
    ensures Assemble(c).Ok? ==> Assemble(c).value.books == c.entries
    ensures Assemble(c).Err? ==> Assemble(c).error.DuplicateKey?
  {
  }

  /** The whole generation: the row loop, then the maps. */
  function Build(rows: seq<Row>): Result<Tables, BuildError> {
    var c :- Collect(rows);
    Assemble(c)
  }

  /** The script's own assertions fail exactly when some row is rejected,
      and then on the first such row; any other failure is a key that
      `phf_map!` refuses. */
  lemma BuildFailsInLoop(rows: seq<Row>)
    ensures Build(rows).Err? && !Build(rows).error.DuplicateKey? <==> exists i :: RowRejected(rows, i)
    ensures Build(rows).Err? && !Build(rows).error.DuplicateKey? ==>
              forall i :: 0 <= i < Build(rows).error.row ==> !RowRejected(rows, i)
  {
    CollectFails(rows);
    match Collect(rows)
    case Err(e) =>
      assert Build(rows) == Err(e);
    case Ok(c) =>
      AssembleSucceeds(c);
      assert Build(rows) == Assemble(c);
  }

  /** The five `phf_map!`s, in the order they are declared. */
  function Assemble(c: Collected): Result<Tables, BuildError> {
    var referenceMap :- PhfMap(ReferenceTable, IndexedEntries(c.referenceAbbreviations));
    var usfmMap :- PhfMap(UsfmTable, c.usfmEntries);
    var uppercaseUsfmMap :- PhfMap(UppercaseUsfmTable, UppercaseEntries(c.usfmEntries));
    var osisMap :- PhfMap(OsisTable, c.osisEntries);
    var englishNameMap :- PhfMap(EnglishNameTable, c.englishEntries);
    Ok(Tables(c.entries, referenceMap, usfmMap, uppercaseUsfmMap, osisMap, englishNameMap))
  }
}

=== FILE: books_codes_js.dfy ===
/** The pure helpers of the JavaScript `BibleBooksCodes` class
    (`JavaScript/BibleBooksCodes.js`) over its loaded data tables.
    A JavaScript `TypeError` (reading a property of `undefined`, calling a
    missing method) is the `Err` case; `NaN` is a value of its own. */
module BooksCodesJs {
  import opened Wrappers
  import opened Text

  datatype JsError = TypeError

  /** The integer-valued JavaScript numbers the helpers compute, and `NaN`. */
  datatype JsNumber = Num(n: int) | NaN

  /** The fields of one `referenceAbbreviationDict` entry these helpers read;
      `numExpectedChapters` is `null` (`None`) or a comma-separated string. */
  datatype JsEntry = JsEntry(
    referenceNumber: int,
    numExpectedChapters: Option<string>,
    bookNameEnglishGuide: string)

  /** The two parts of the loaded tables the helpers use. */
  datatype JsData = JsData(
    referenceAbbreviationDict: map<string, JsEntry>,
    sequenceList: seq<string>)

  // ---------------------------------------------------------------------
  // isValidBBB / contains

  /** The names every plain JavaScript object inherits from
      `Object.prototype`, which the `in` operator also reports. */
  const ObjectPrototypeNames: set<string> := {
    "constructor", "hasOwnProperty", "isPrototypeOf", "propertyIsEnumerable",
    "toLocaleString", "toString", "valueOf", "__proto__",
    "__defineGetter__", "__defineSetter__", "__lookupGetter__", "__lookupSetter__"
  }

  /** `isValidBBB` as written: `BBB in dict`, which is also true for the
      inherited property names. */
  function IsValidBbbAsWritten(d: JsData, bbb: string): (r: bool)
    ensures r <==> bbb in d.referenceAbbreviationDict || bbb in ObjectPrototypeNames
  {
    bbb in d.referenceAbbreviationDict || bbb in ObjectPrototypeNames
  }

  /** `contains` has the same body as `isValidBBB`. */
  function ContainsAsWritten(d: JsData, bbb: string): (r: bool)
    ensures r == IsValidBbbAsWritten(d, bbb)
  {
    bbb in d.referenceAbbreviationDict || bbb in ObjectPrototypeNames
  }

  /** The evidently intended check: an own key of the dictionary. */
  function IsValidBbb(d: JsData, bbb: string): (r: bool)
    ensures r <==> bbb in d.referenceAbbreviationDict
  {
    bbb in d.referenceAbbreviationDict
  }

  /** The two checks agree except on inherited names that are not keys. */
  lemma ValidityChecksAgree(d: JsData, bbb: string)
    ensures ContainsAsWritten(d, bbb) == IsValidBbbAsWritten(d, bbb)
    ensures bbb !in ObjectPrototypeNames ==> (IsValidBbbAsWritten(d, bbb) <==> IsValidBbb(d, bbb))
    ensures IsValidBbb(d, bbb) ==> IsValidBbbAsWritten(d, bbb)
  {
  }

  /** `isValidBBB("toString")` holds for any table without such a key,
      though no book has that code. */
  lemma InheritedNameCountsAsValid(d: JsData)
    requires "toString" !in d.referenceAbbreviationDict
    ensures IsValidBbbAsWritten(d, "toString")
    ensures !IsValidBbb(d, "toString")
  {
  }

  // ---------------------------------------------------------------------
  // getReferenceNumber and the testament tests

  /** `getReferenceNumber`: a missing book reads a property of `undefined`. */
  function ReferenceNumber(d: JsData, bbb: string): (r: Result<int, JsError>)
    ensures r.Ok? <==> bbb in d.referenceAbbreviationDict
    ensures r.Ok? ==> r.value == d.referenceAbbreviationDict[bbb].referenceNumber
  {
    if bbb in d.referenceAbbreviationDict then Ok(d.referenceAbbreviationDict[bbb].referenceNumber)
    else Err(TypeError)
  }

  /** `isOldTestament_NR`: reference numbers 1..39. */
  function IsOldTestament(d: JsData, bbb: string): (r: Result<bool, JsError>)
    ensures r.Ok? <==> bbb in d.referenceAbbreviationDict
    ensures r.Ok? ==> (r.value <==> 1 <= d.referenceAbbreviationDict[bbb].referenceNumber <= 39)
  {
    var n :- ReferenceNumber(d, bbb);
    Ok(n >= 1 && n <= 39)
  }

  /** `isNewTestament_NR`: reference numbers 40..66. */
  function IsNewTestament(d: JsData, bbb: string): (r: Result<bool, JsError>)
    ensures r.Ok? <==> bbb in d.referenceAbbreviationDict
    ensures r.Ok? ==> (r.value <==> 40 <= d.referenceAbbreviationDict[bbb].referenceNumber <= 66)
  {
    var n :- ReferenceNumber(d, bbb);
    Ok(n >= 40 && n <= 66)
  }

  /** No book is in both testaments, and both tests fail on the same books. */
  lemma TestamentsDisjoint(d: JsData, bbb: string)
    ensures IsOldTestament(d, bbb).Ok? <==> IsNewTestament(d, bbb).Ok?
    ensures !(IsOldTestament(d, bbb) == Ok(true) && IsNewTestament(d, bbb) == Ok(true))
  {
  }

  // ---------------------------------------------------------------------
  // English names

  /** `getEnglishNameList_NR`: the guide split on '/', each piece trimmed. */
  function EnglishNameList(d: JsData, bbb: string): (r: Result<seq<string>, JsError>)
    ensures r.Ok? <==> bbb in d.referenceAbbreviationDict
    ensures r.Ok? ==> |r.value| == |Split(d.referenceAbbreviationDict[bbb].bookNameEnglishGuide, '/')|
    ensures r.Ok? ==> forall k :: 0 <= k < |r.value| ==>
              r.value[k] == Trim(Split(d.referenceAbbreviationDict[bbb].bookNameEnglishGuide, '/')[k])
  {
    if bbb !in d.referenceAbbreviationDict then Err(TypeError)
    else
      var pieces := Split(d.referenceAbbreviationDict[bbb].bookNameEnglishGuide, '/');
      Ok(seq(|pieces|, k requires 0 <= k < |pieces| => Trim(pieces[k])))
  }

  /** `getEnglishName_NR`: the text before the first '/', trimmed. */
  function EnglishName(d: JsData, bbb: string): (r: Result<string, JsError>)
    ensures r.Ok? <==> bbb in d.referenceAbbreviationDict
  {
    if bbb !in d.referenceAbbreviationDict then Err(TypeError)
    else Ok(Trim(TakeUntil(d.referenceAbbreviationDict[bbb].bookNameEnglishGuide, '/')))
  }

  /** The single name is the first element of the list, the list has one
      name more than the guide has slashes, and no listed name starts or
      ends with white space. */
  lemma EnglishNameIsFirstOfList(d: JsData, bbb: string)
    requires bbb in d.referenceAbbreviationDict
    ensures EnglishNameList(d, bbb).Ok? && EnglishName(d, bbb).Ok?
    ensures |EnglishNameList(d, bbb).value| == CountChar(d.referenceAbbreviationDict[bbb].bookNameEnglishGuide, '/') + 1
    ensures EnglishName(d, bbb).value == EnglishNameList(d, bbb).value[0]
    ensures forall k :: 0 <= k < |EnglishNameList(d, bbb).value| ==>
              var name := EnglishNameList(d, bbb).value[k];
              |name| > 0 ==> !IsJsWhitespace(name[0]) && !IsJsWhitespace(name[|name| - 1])
  {
    var guide := d.referenceAbbreviationDict[bbb].bookNameEnglishGuide;
    var pieces := Split(guide, '/');
    var list := EnglishNameList(d, bbb).value;
    TakeUntilIsFirstPiece(guide, '/');
    SplitCount(guide, '/');
    assert |list| == |pieces|;
    assert list[0] == Trim(pieces[0]);
    assert EnglishName(d, bbb).value == Trim(TakeUntil(guide, '/'));
    forall k | 0 <= k < |list|
      ensures |list[k]| > 0 ==> !IsJsWhitespace(list[k][0]) && !IsJsWhitespace(list[k][|list[k]| - 1])
    {
      assert list[k] == Trim(pieces[k]);
    }
  }

  // ---------------------------------------------------------------------
  // getExpectedChaptersList / getMaxChapters

  /** `getExpectedChaptersList`: the comma-split expected-chapters text, or
      `None` (JavaScript `undefined`) when that text is null or empty. */
  function ExpectedChaptersList(d: JsData, bbb: string): (r: Result<Option<seq<string>>, JsError>)
    ensures r.Ok? <==> bbb in d.referenceAbbreviationDict
    ensures r.Ok? ==> (r.value.None? <==> d.referenceAbbreviationDict[bbb].numExpectedChapters in {None, Some("")})
    ensures r.Ok? && r.value.Some? ==>
              Join(r.value.value, ',') == d.referenceAbbreviationDict[bbb].numExpectedChapters.value
  {
    if bbb !in d.referenceAbbreviationDict then Err(TypeError)
    else
      match d.referenceAbbreviationDict[bbb].numExpectedChapters
      case None => Ok(None)
      case Some(eC) =>
        if eC == "" then Ok(None)
        else
          JoinSplit(eC, ',');
          Ok(Some(Split(eC, ',')))
  }

  /** The loop of `getMaxChapters` over the parsed entries (`None` is
      `NaN`, and no comparison with `NaN` holds): starting from -1, keep any
      value greater than the current one. */
  method MaxOfParsed(values: seq<Option<int>>) returns (maxChapters: int)
    ensures maxChapters >= -1
    ensures forall k :: 0 <= k < |values| && values[k].Some? ==> values[k].value <= maxChapters
    ensures maxChapters == -1 || exists k :: 0 <= k < |values| && values[k] == Some(maxChapters)
  {
    maxChapters := -1;
    var c := 0;
    while c < |values|
      invariant 0 <= c <= |values|
      invariant maxChapters >= -1
      invariant forall k :: 0 <= k < c && values[k].Some? ==> values[k].value <= maxChapters
      invariant maxChapters == -1 || exists k :: 0 <= k < c && values[k] == Some(maxChapters)
    {
      var intNC := values[c];
      if intNC.Some? && intNC.value > maxChapters {
        maxChapters := intNC.value;
      }
      c := c + 1;
    }
  }

  /** The same loop over the list's entries, each read by `parseInt`. */
  method MaxOfEntries(entries: seq<string>) returns (m: int)
    ensures m >= -1
    ensures forall k :: 0 <= k < |entries| && ParseInt(entries[k]).Some? ==> ParseInt(entries[k]).value <= m
    ensures m == -1 || exists k :: 0 <= k < |entries| && ParseInt(entries[k]) == Some(m)
  {
    var values := seq(|entries|, k requires 0 <= k < |entries| => ParseInt(entries[k]));
    m := MaxOfParsed(values);
    forall k | 0 <= k < |entries| && ParseInt(entries[k]).Some?
      ensures ParseInt(entries[k]).value <= m
    {
      assert values[k] == ParseInt(entries[k]);
    }
    if m != -1 {
      var k :| 0 <= k < |values| && values[k] == Some(m);
      assert ParseInt(entries[k]) == Some(m);
    }
  }

  /** `getMaxChapters`: the largest number `parseInt` reads from the
      expected-chapters list, or -1 when it reads none greater; an
      `undefined` list has no `length`. */
  method MaxChapters(d: JsData, bbb: string) returns (r: Result<int, JsError>)
    ensures r.Err? <==> !(ExpectedChaptersList(d, bbb).Ok? && ExpectedChaptersList(d, bbb).value.Some?)
    ensures r.Ok? ==>
              var list := ExpectedChaptersList(d, bbb).value.value;
              && r.value >= -1
              && (forall k :: 0 <= k < |list| && ParseInt(list[k]).Some? ==> ParseInt(list[k]).value <= r.value)
              && (r.value == -1 || exists k :: 0 <= k < |list| && ParseInt(list[k]) == Some(r.value))
  {
    var list := ExpectedChaptersList(d, bbb);
    if list.Err? || list.value.None? {
      return Err(TypeError);
    }
    var m := MaxOfEntries(list.value.value);
    return Ok(m);
  }

  // ---------------------------------------------------------------------
  // getSequenceList

  /** An element of the caller's list: a book code, or a tuple whose first
      entry is the book code. */
  datatype Item = Code(code: string) | Tuple(parts: seq<string>)

  /** The code an item stands for; an empty tuple has none (`undefined`). */
  function ItemKey(item: Item): (r: Option<string>)
    ensures item.Code? ==> r == Some(item.code)
    ensures item.Tuple? ==> (r.Some? <==> |item.parts| > 0)
  {
    match item
    case Code(s) => Some(s)
    case Tuple(parts) => if |parts| == 0 then None else Some(parts[0])
  }

  /** The argument of `getSequenceList`: `NullList` is `null` or `undefined`
      (an omitted or `undefined` argument takes the default `null`);
      `FalsyList` is `false`, `0`, `""` or `NaN`; otherwise a list. */
  datatype SequenceArgument = NullList | FalsyList | GivenList(items: seq<Item>)

  /** The first item of `items` standing for `code`. */
  function FirstWithKey(items: seq<Item>, code: string): (r: Option<Item>)
    ensures r.Some? <==> exists k :: 0 <= k < |items| && ItemKey(items[k]) == Some(code)
    ensures r.Some? ==> r.value in items && ItemKey(r.value) == Some(code)
    decreases |items|
  {
    if |items| == 0 then None
    else if ItemKey(items[0]) == Some(code) then Some(items[0])
    else
      var r := FirstWithKey(items[1..], code);
      assert forall k :: 1 <= k < |items| ==> items[k] == items[1..][k - 1];
      r
  }

  /** The codes of `items`, where they have one. */
  ghost function KeysOf(items: seq<Item>): set<string> {
    set k | 0 <= k < |items| && ItemKey(items[k]).Some? :: ItemKey(items[k]).value
  }

  /** The inner loop over the stored sequence: for each code in order, the
      first matching item of the caller's list. */
  function Arrange(sequence: seq<string>, items: seq<Item>): (r: seq<Item>)
    ensures |r| <= |sequence|
    ensures forall k :: 0 <= k < |r| ==> r[k] in items
    ensures forall k :: 0 <= k < |r| ==> ItemKey(r[k]).Some? && ItemKey(r[k]).value in sequence
    decreases |sequence|
  {
    if |sequence| == 0 then []
    else
      match FirstWithKey(items, sequence[0])
      case None => Arrange(sequence[1..], items)
      case Some(item) => [item] + Arrange(sequence[1..], items)
  }

  /** `getSequenceList`. */
  function SequenceList(d: JsData, arg: SequenceArgument): (r: seq<Item>)
    ensures arg.NullList? ==> |r| == |d.sequenceList| && forall k :: 0 <= k < |r| ==> r[k] == Code(d.sequenceList[k])
    ensures arg.FalsyList? ==> r == []
    ensures arg.GivenList? ==> forall k :: 0 <= k < |r| ==> r[k] in arg.items
  {
    match arg
    case NullList => seq(|d.sequenceList|, k requires 0 <= k < |d.sequenceList| => Code(d.sequenceList[k]))
    case FalsyList => []
    case GivenList(items) => Arrange(d.sequenceList, items)
  }

  /** The codes of the sequence that some item stands for, in sequence order. */
  function Present(sequence: seq<string>, items: seq<Item>): (r: seq<string>)
    decreases |sequence|
  {
    if |sequence| == 0 then []
    else if exists k :: 0 <= k < |items| && ItemKey(items[k]) == Some(sequence[0]) then
      [sequence[0]] + Present(sequence[1..], items)
    else Present(sequence[1..], items)
  }

  /** The result follows the stored order: element `k` is the first item
      for the `k`-th sequence code that occurs in the caller's list (so its
      code is that one). */
  lemma {:induction false} ArrangeFollowsSequence(sequence: seq<string>, items: seq<Item>)
    ensures |Arrange(sequence, items)| == |Present(sequence, items)|
    ensures forall k :: 0 <= k < |Arrange(sequence, items)| ==>
              Some(Arrange(sequence, items)[k]) == FirstWithKey(items, Present(sequence, items)[k])
    decreases |sequence|
  {
    if |sequence| > 0 {
      var rest := sequence[1..];
      ArrangeFollowsSequence(rest, items);
      var first := FirstWithKey(items, sequence[0]);
      if first.Some? {
        ArrangeCons(sequence, items);
      } else {
        assert Arrange(sequence, items) == Arrange(rest, items);
        assert Present(sequence, items) == Present(rest, items);
      }
    }
  }

  lemma ArrangeCons(sequence: seq<string>, items: seq<Item>)
    requires |sequence| > 0 && FirstWithKey(items, sequence[0]).Some?
    requires |Arrange(sequence[1..], items)| == |Present(sequence[1..], items)|
    requires forall k :: 0 <= k < |Arrange(sequence[1..], items)| ==>
               Some(Arrange(sequence[1..], items)[k]) == FirstWithKey(items, Present(sequence[1..], items)[k])
    ensures |Arrange(sequence, items)| == |Present(sequence, items)|
    ensures forall k :: 0 <= k < |Arrange(sequence, items)| ==>
              Some(Arrange(sequence, items)[k]) == FirstWithKey(items, Present(sequence, items)[k])
  {
    var first := FirstWithKey(items, sequence[0]);
    var r, present := Arrange(sequence[1..], items), Present(sequence[1..], items);
    assert Arrange(sequence, items) == [first.value] + r;
    assert Present(sequence, items) == [sequence[0]] + present;
  }

  /** A code occurs in `Present` exactly when it is in the sequence and
      some item stands for it. */
  lemma {:induction false} PresentMembers(sequence: seq<string>, items: seq<Item>, c: string)
    ensures c in Present(sequence, items) <==> c in sequence && c in KeysOf(items)
    decreases |sequence|
  {
    if |sequence| > 0 {
      PresentMembers(sequence[1..], items, c);
      assert sequence == [sequence[0]] + sequence[1..];
      if c == sequence[0] && c in KeysOf(items) {
        var k :| 0 <= k < |items| && ItemKey(items[k]).Some? && ItemKey(items[k]).value == c;
        assert ItemKey(items[k]) == Some(sequence[0]);
      }
    }
  }

  /** Over a sequence without repeats, `Present` has one entry per code
      shared by the sequence and the items. */
  lemma {:induction false} PresentCount(sequence: seq<string>, items: seq<Item>)
    requires forall i, j :: 0 <= i < j < |sequence| ==> sequence[i] != sequence[j]
    ensures |Present(sequence, items)| == |(set x | x in sequence) * KeysOf(items)|
    decreases |sequence|
  {
    if |sequence| > 0 {
      var a, rest := sequence[0], sequence[1..];
      forall i, j | 0 <= i < j < |rest| ensures rest[i] != rest[j] {
        assert rest[i] == sequence[i + 1] && rest[j] == sequence[j + 1];
      }
      PresentCount(rest, items);
      forall j | 0 <= j < |rest| ensures rest[j] != a {
        assert rest[j] == sequence[j + 1];
      }
      var keys := KeysOf(items);
      var restSet := set x | x in rest;
      assert a !in restSet;
      SetOfCons(sequence);
      PresentStep(sequence, items);
      if a in keys {
        SharedCons(a, restSet, keys);
      } else {
        SharedSkip(a, restSet, keys);
      }
    }
  }

  /** One step of `Present`: the first code is kept exactly when it is a
      code of the items. */
  lemma PresentStep(sequence: seq<string>, items: seq<Item>)
    requires |sequence| > 0
    ensures sequence[0] in KeysOf(items) ==> Present(sequence, items) == [sequence[0]] + Present(sequence[1..], items)
    ensures sequence[0] !in KeysOf(items) ==> Present(sequence, items) == Present(sequence[1..], items)
  {
    var a := sequence[0];
    if exists k :: 0 <= k < |items| && ItemKey(items[k]) == Some(a) {
      var k :| 0 <= k < |items| && ItemKey(items[k]) == Some(a);
      assert a in KeysOf(items);
    } else {
      forall k | 0 <= k < |items| ensures !(ItemKey(items[k]).Some? && ItemKey(items[k]).value == a) {
      }
    }
  }

  lemma SetOfCons(s: seq<string>)
    requires |s| > 0
    ensures (set x | x in s) == {s[0]} + (set x | x in s[1..])
  {
    assert s == [s[0]] + s[1..];
  }

  lemma SharedSkip(a: string, rest: set<string>, keys: set<string>)
    requires a !in keys
    ensures ({a} + rest) * keys == rest * keys
  {
  }

  lemma SharedCons(a: string, rest: set<string>, keys: set<string>)
    requires a !in rest && a in keys
    ensures |({a} + rest) * keys| == |rest * keys| + 1
  {
    assert ({a} + rest) * keys == {a} + rest * keys;
  }

  /** Items whose codes are all different have as many codes as items. */
  lemma {:induction false} KeysCount(items: seq<Item>)
    requires forall k :: 0 <= k < |items| ==> ItemKey(items[k]).Some?
    requires forall i, j :: 0 <= i < j < |items| ==> ItemKey(items[i]) != ItemKey(items[j])
    ensures |KeysOf(items)| == |items|
    decreases |items|
  {
    if |items| > 0 {
      var rest := items[1..];
      KeysCount(rest);
      var a := ItemKey(items[0]).value;
      assert KeysOf(items) == {a} + KeysOf(rest) by {
        forall c | c in KeysOf(items) ensures c in {a} + KeysOf(rest) {
          var k :| 0 <= k < |items| && ItemKey(items[k]).Some? && ItemKey(items[k]).value == c;
          if k > 0 { assert rest[k - 1] == items[k]; }
        }
        forall c | c in KeysOf(rest) ensures c in KeysOf(items) {
          var k :| 0 <= k < |rest| && ItemKey(rest[k]).Some? && ItemKey(rest[k]).value == c;
          assert items[k + 1] == rest[k];
        }
      }
      forall k | 0 <= k < |rest| ensures ItemKey(rest[k]) != Some(a) {
        assert rest[k] == items[k + 1];
      }
    }
  }

  /** For a list of distinct valid codes (each standing for a code of the
      stored sequence, no code twice, the sequence without repeats) the
      result has the length of the list and holds every item of it. */
  lemma SequenceListKeepsValidItems(d: JsData, items: seq<Item>)
    requires forall i, j :: 0 <= i < j < |d.sequenceList| ==> d.sequenceList[i] != d.sequenceList[j]
    requires forall k :: 0 <= k < |items| ==> ItemKey(items[k]).Some? && ItemKey(items[k]).value in d.sequenceList
    requires forall i, j :: 0 <= i < j < |items| ==> ItemKey(items[i]) != ItemKey(items[j])
    ensures |SequenceList(d, GivenList(items))| == |items|
    ensures forall k :: 0 <= k < |items| ==> items[k] in SequenceList(d, GivenList(items))
  {
    var sequence := d.sequenceList;
    var r := Arrange(sequence, items);
    var present := Present(sequence, items);
    ArrangeFollowsSequence(sequence, items);
    PresentCount(sequence, items);
    KeysCount(items);
    assert (set x | x in sequence) * KeysOf(items) == KeysOf(items);
    forall k | 0 <= k < |items| ensures items[k] in r {
      var c := ItemKey(items[k]).value;
      assert c in KeysOf(items);
      PresentMembers(sequence, items, c);
      var j :| 0 <= j < |present| && present[j] == c;
      var first := FirstWithKey(items, c);
      assert Some(r[j]) == first;
      var m :| 0 <= m < |items| && items[m] == first.value;
      assert ItemKey(items[m]) == ItemKey(items[k]);
      assert m == k;
    }
  }

  // ---------------------------------------------------------------------
  // tidyBBB

  /** `tidyBBB` as written calls `isdigit`, which JavaScript strings do not
      have: every call throws, whatever the code. */
  function TidyBbbAsWritten(bbb: string): (r: Result<string, JsError>)
    ensures r == Err(TypeError)
  {
    Err(TypeError)
  }

  /** `tidyBBBs` as written: the loop calls `tidyBBB` on each code, so only
      an empty list gets through. */
  function TidyBbbsAsWritten(codes: seq<string>): (r: Result<seq<string>, JsError>)
    ensures r.Ok? <==> |codes| == 0
  {
    if |codes| == 0 then Ok([]) else Err(TidyBbbAsWritten(codes[0]).error)
  }

  /** The evidently intended `tidyBBB`: a digit in position 2 moves to the
      front (`SA1` becomes `1SA`), anything else is left unchanged. */
  function TidyBbb(bbb: string): (r: string)
    ensures |bbb| == 3 ==> |r| == 3
    ensures |bbb| >= 3 && IsDecimalDigit(bbb[2]) ==> r == [bbb[2]] + bbb[..2]
    ensures !(|bbb| >= 3 && IsDecimalDigit(bbb[2])) ==> r == bbb
  {
    if |bbb| >= 3 && IsDecimalDigit(bbb[2]) then [bbb[2]] + bbb[..2] else bbb
  }

  /** The evidently intended `tidyBBBs`: `tidyBBB` on every code. */
  function TidyBbbs(codes: seq<string>): (r: seq<string>)
    ensures |r| == |codes|
    ensures forall k :: 0 <= k < |codes| ==> r[k] == TidyBbb(codes[k])
  {
    seq(|codes|, k requires 0 <= k < |codes| => TidyBbb(codes[k]))
  }

  /** The inverse rotation: the leading character moves to the back. */
  function UntidyBbb(code: string): (r: string)
    requires |code| == 3
    ensures |r| == 3 && r[2] == code[0] && r[..2] == code[1..]
  {
    code[1..] + [code[0]]
  }

  /** For a three-character code that starts with a letter (as every
      reference abbreviation does), tidying is undone by `UntidyBbb` when it
      moved a digit, and a tidied code is left alone by a second tidy when
      its middle character is not a digit. */
  lemma TidyRoundTrip(bbb: string)
    requires |bbb| == 3 && !IsDecimalDigit(bbb[0])
    ensures IsDecimalDigit(bbb[2]) ==> UntidyBbb(TidyBbb(bbb)) == bbb
    ensures !IsDecimalDigit(bbb[1]) ==> TidyBbb(TidyBbb(bbb)) == TidyBbb(bbb)
  {
    if IsDecimalDigit(bbb[2]) {
      assert UntidyBbb(TidyBbb(bbb)) == [bbb[0], bbb[1], bbb[2]];
    }
  }

  // ---------------------------------------------------------------------
  // BCVReferenceToInt

  /** A sort key with the given chapter and verse bases: reference number,
      then chapter, verse and suffix (base 10). */
  function KeyWith(chapterBase: int, verseBase: int, book: int, chapter: int, verse: int, suffix: int): int {
    ((book * chapterBase + chapter) * verseBase + verse) * 10 + suffix
  }

  /** The key as written: chapters in base 100, verses in base 150. */
  function SortKeyAsWritten(book: int, chapter: int, verse: int, suffix: int): int {
    KeyWith(100, 150, book, chapter, verse, suffix)
  }

  /** The bases that hold every chapter (at most 150, in Psalms) and every
      verse (at most 176, in Psalm 119) of the books in the table. */
  const ChapterBase := 1000
  const VerseBase := 1000

  /** The key as evidently intended. */
  function SortKey(book: int, chapter: int, verse: int, suffix: int): int {
    KeyWith(ChapterBase, VerseBase, book, chapter, verse, suffix)
  }

  /** `hi * base + lo` with a digit `lo` orders like the pair `(hi, lo)`. */
  lemma MixOrder(h1: int, l1: int, h2: int, l2: int, base: int)
    requires 0 <= l1 < base && 0 <= l2 < base
    ensures h1 * base + l1 < h2 * base + l2 <==> h1 < h2 || (h1 == h2 && l1 < l2)
    ensures h1 * base + l1 == h2 * base + l2 <==> h1 == h2 && l1 == l2
  {
    if h1 < h2 {
      MulMonotone(h1 + 1, h2, base);
      assert (h1 + 1) * base == h1 * base + base;
    } else if h1 > h2 {
      MulMonotone(h2 + 1, h1, base);
      assert (h2 + 1) * base == h2 * base + base;
    }
  }

  lemma MulMonotone(a: int, b: int, c: int)
    requires a <= b && 0 <= c
    ensures a * c <= b * c
  {
    assert b * c - a * c == (b - a) * c;
  }

  /** Within the ranges its bases allow, a key orders references
      lexicographically by book number, chapter, verse and suffix. */
  lemma KeyWithOrder(cb: int, vb: int, b1: int, c1: int, v1: int, s1: int, b2: int, c2: int, v2: int, s2: int)
    requires 0 <= c1 < cb && 0 <= c2 < cb
    requires 0 <= v1 < vb && 0 <= v2 < vb
    requires 0 <= s1 < 10 && 0 <= s2 < 10
    ensures KeyWith(cb, vb, b1, c1, v1, s1) < KeyWith(cb, vb, b2, c2, v2, s2) <==>
              b1 < b2 || (b1 == b2 && (c1 < c2 || (c1 == c2 && (v1 < v2 || (v1 == v2 && s1 < s2)))))
    ensures KeyWith(cb, vb, b1, c1, v1, s1) == KeyWith(cb, vb, b2, c2, v2, s2) <==>
              b1 == b2 && c1 == c2 && v1 == v2 && s1 == s2
  {
    MixOrder(b1, c1, b2, c2, cb);
    var m1, m2 := b1 * cb + c1, b2 * cb + c2;
    MixOrder(m1, v1, m2, v2, vb);
    var n1, n2 := m1 * vb + v1, m2 * vb + v2;
    MixOrder(n1, s1, n2, s2, 10);
  }

  /** The intended key orders every reference of the table (chapters and
      verses below 1000) by book number, chapter, verse and suffix, and
      gives distinct references distinct keys. */
  lemma SortKeyOrder(b1: int, c1: int, v1: int, s1: int, b2: int, c2: int, v2: int, s2: int)
    requires 0 <= c1 < ChapterBase && 0 <= c2 < ChapterBase
    requires 0 <= v1 < VerseBase && 0 <= v2 < VerseBase
    requires 0 <= s1 < 10 && 0 <= s2 < 10
    ensures SortKey(b1, c1, v1, s1) < SortKey(b2, c2, v2, s2) <==>
              b1 < b2 || (b1 == b2 && (c1 < c2 || (c1 == c2 && (v1 < v2 || (v1 == v2 && s1 < s2)))))
    ensures SortKey(b1, c1, v1, s1) == SortKey(b2, c2, v2, s2) <==> b1 == b2 && c1 == c2 && v1 == v2 && s1 == s2
  {
    KeyWithOrder(ChapterBase, VerseBase, b1, c1, v1, s1, b2, c2, v2, s2);
  }

  /** The key as written orders references only while chapters stay below
      100 and verses below 150. */
  lemma SortKeyAsWrittenOrder(b1: int, c1: int, v1: int, s1: int, b2: int, c2: int, v2: int, s2: int)
    requires 0 <= c1 < 100 && 0 <= c2 < 100
    requires 0 <= v1 < 150 && 0 <= v2 < 150
    requires 0 <= s1 < 10 && 0 <= s2 < 10
    ensures SortKeyAsWritten(b1, c1, v1, s1) < SortKeyAsWritten(b2, c2, v2, s2) <==>
              b1 < b2 || (b1 == b2 && (c1 < c2 || (c1 == c2 && (v1 < v2 || (v1 == v2 && s1 < s2)))))
  {
    KeyWithOrder(100, 150, b1, c1, v1, s1, b2, c2, v2, s2);
  }

  /** As written, chapter `100 + c` of a book gets the key of chapter `c` of
      the next book, and verse `150 + v` the key of verse `v` of the next
      chapter: Psalm 101:1 collides with verse 1:1 of book 20, and Psalm
      119:151 with Psalm 120:1. The intended key keeps them apart. */
  lemma PsalmsCollide(b: int, c: int, v: int, s: int)
    ensures SortKeyAsWritten(b, 100 + c, v, s) == SortKeyAsWritten(b + 1, c, v, s)
    ensures SortKeyAsWritten(b, c, 150 + v, s) == SortKeyAsWritten(b, c + 1, v, s)
    ensures SortKeyAsWritten(19, 101, 1, 0) == SortKeyAsWritten(20, 1, 1, 0)
    ensures SortKeyAsWritten(19, 119, 151, 0) == SortKeyAsWritten(19, 120, 1, 0)
    ensures SortKey(19, 101, 1, 0) < SortKey(20, 1, 1, 0)
    ensures SortKey(19, 119, 151, 0) < SortKey(19, 120, 1, 0)
  {
    assert b * 100 + (100 + c) == (b + 1) * 100 + c;
    assert (b * 100 + c) * 150 + (150 + v) == (b * 100 + (c + 1)) * 150 + v;
    SortKeyOrder(19, 101, 1, 0, 20, 1, 1, 0);
    SortKeyOrder(19, 119, 151, 0, 19, 120, 1, 0);
  }

  /** Arithmetic on a `NaN`-able number: `NaN` absorbs everything. */
  function Combine(acc: JsNumber, base: int, digit: JsNumber): (r: JsNumber)
    ensures r.Num? <==> acc.Num? && digit.Num?
    ensures r.Num? ==> r.n == acc.n * base + digit.n
  {
    if acc.NaN? || digit.NaN? then NaN else Num(acc.n * base + digit.n)
  }

  function FromParse(p: Option<int>): (r: JsNumber)
    ensures r.Num? <==> p.Some?
    ensures r.Num? ==> r.n == p.value
  {
    if p.None? then NaN else Num(p.value)
  }

  /** `BCVReferenceToInt` as written: the destructuring `[BBB, C, V] = tuple`
      never throws, so the suffix is always `""` and counts as 0. A missing
      book or a missing verse (a tuple shorter than three) throws. */
  function BcvReferenceToIntAsWritten(d: JsData, reference: seq<string>): (r: Result<JsNumber, JsError>)
    ensures r.Ok? <==> |reference| >= 3 && reference[0] in d.referenceAbbreviationDict
    ensures r.Ok? ==> (r.value.Num? <==> ParseInt(reference[1]).Some? && ParseInt(TakeUntil(reference[2], '-')).Some?)
    ensures r.Ok? && r.value.Num? ==>
              r.value.n == SortKeyAsWritten(d.referenceAbbreviationDict[reference[0]].referenceNumber,
                                            ParseInt(reference[1]).value,
                                            ParseInt(TakeUntil(reference[2], '-')).value, 0)
  {
    if |reference| < 3 then Err(TypeError)
    else
      var book :- ReferenceNumber(d, reference[0]);
      var withChapter := Combine(Num(book), 100, FromParse(ParseInt(reference[1])));
      var withVerse := Combine(withChapter, 150, FromParse(ParseInt(TakeUntil(reference[2], '-'))));
      Ok(Combine(withVerse, 10, Num(0)))
  }

  /** The suffix of a four-element reference as evidently intended: absent
      or empty is 0, `a` is 0, `b` is 1 (either case), anything else reads
      `undefined` from the lookup object and gives `NaN`. */
  function SuffixValue(reference: seq<string>): (r: JsNumber)
    ensures r.Num? ==> 0 <= r.n < 2
    ensures |reference| < 4 || reference[3] in {"", "a", "A"} ==> r == Num(0)
    ensures |reference| >= 4 && reference[3] in {"b", "B"} ==> r == Num(1)
    ensures r.NaN? <==> |reference| >= 4 && reference[3] !in {"", "a", "A", "b", "B"}
  {
    if |reference| < 4 || reference[3] == "" then Num(0)
    else if reference[3] in {"a", "A"} then Num(0)
    else if reference[3] in {"b", "B"} then Num(1)
    else NaN
  }

  /** The evidently intended `BCVReferenceToInt`: it reads the suffix of a
      BCVS reference, and its bases hold every chapter and verse. */
  function BcvReferenceToInt(d: JsData, reference: seq<string>): (r: Result<JsNumber, JsError>)
    ensures r.Ok? <==> |reference| >= 3 && reference[0] in d.referenceAbbreviationDict
    ensures r.Ok? ==> (r.value.Num? <==> ParseInt(reference[1]).Some? && ParseInt(TakeUntil(reference[2], '-')).Some?
                                         && SuffixValue(reference).Num?)
    ensures r.Ok? && r.value.Num? ==>
              r.value.n == SortKey(d.referenceAbbreviationDict[reference[0]].referenceNumber,
                                   ParseInt(reference[1]).value,
                                   ParseInt(TakeUntil(reference[2], '-')).value, SuffixValue(reference).n)
  {
    if |reference| < 3 then Err(TypeError)
    else
      var book :- ReferenceNumber(d, reference[0]);
      var withChapter := Combine(Num(book), ChapterBase, FromParse(ParseInt(reference[1])));
      var withVerse := Combine(withChapter, VerseBase, FromParse(ParseInt(TakeUntil(reference[2], '-'))));
      Ok(Combine(withVerse, 10, SuffixValue(reference)))
  }

  /** As written, the suffix is ignored: verses `a` and `b` of the same
      reference get one key, while the intended keys differ. */
  lemma AsWrittenIgnoresSuffix(d: JsData, book: string, chapter: string, verse: string)
    requires book in d.referenceAbbreviationDict
    ensures BcvReferenceToIntAsWritten(d, [book, chapter, verse, "a"])
            == BcvReferenceToIntAsWritten(d, [book, chapter, verse, "b"])
    ensures BcvReferenceToInt(d, [book, chapter, verse, "a"]).Ok?
    ensures ParseInt(chapter).Some? && ParseInt(TakeUntil(verse, '-')).Some? ==>
              BcvReferenceToInt(d, [book, chapter, verse, "a"]) != BcvReferenceToInt(d, [book, chapter, verse, "b"])
  {
    var a, b := [book, chapter, verse, "a"], [book, chapter, verse, "b"];
    assert a[..3] == b[..3];
    assert SuffixValue(a) == Num(0);
    assert SuffixValue(b) == Num(1);
  }

  /** Only the start of a verse range counts: `5-7` sorts as `5`. */
  lemma VerseRangeUsesStart(d: JsData, book: string, chapter: string, start: string, tail: string)
    requires '-' !in start
    ensures BcvReferenceToInt(d, [book, chapter, start + "-" + tail]) == BcvReferenceToInt(d, [book, chapter, start])
  {
    TakeUntilPrefix(start, tail);
  }

  lemma {:induction false} TakeUntilPrefix(start: string, tail: string)
    requires '-' !in start
    ensures TakeUntil(start + "-" + tail, '-') == start && TakeUntil(start, '-') == start
    decreases |start|
  {
    if |start| > 0 {
      TakeUntilPrefix(start[1..], tail);
      assert (start + "-" + tail)[1..] == start[1..] + "-" + tail;
    }
  }
}

=== FILE: build_properties.dfy ===
/** What the generated tables promise the resolvers: lemmas relating
    `BookTable.Build` to the lookups of `Lookup`. */
module BuildProperties {
  import opened Wrappers
  import opened Text
  import opened BookTable
  import opened Lookup

  /** The tables hold what the rows say, one part per map: entry `i` encodes
      row `i`; the reference map sends each row's abbreviation to its index;
      the USFM and OSIS maps hold the first row per non-empty cell; the
      uppercase USFM map is the USFM map re-keyed; every English form of a
      row maps to it. */
  ghost predicate BooksFrom(t: Tables, rows: seq<Row>) {
    && |t.books| == |rows|
    && forall i :: 0 <= i < |rows| ==> EncodeRow(rows[i], i) == Ok(t.books[i])
  }

  ghost predicate ReferenceMapFrom(m: map<string, nat>, rows: seq<Row>) {
    && (forall i, j :: 0 <= i < j < |rows| ==> rows[i].bosReferenceAbbreviation != rows[j].bosReferenceAbbreviation)
    && (forall i :: 0 <= i < |rows| ==> rows[i].bosReferenceAbbreviation in m && m[rows[i].bosReferenceAbbreviation] == i)
    && (forall k :: k in m ==> m[k] < |rows| && rows[m[k]].bosReferenceAbbreviation == k)
  }

  /** A first-wins map holds exactly the non-empty cells of the column, each
      sent to the first row that has it. */
  ghost predicate FirstWinsMap(m: map<string, nat>, rows: seq<Row>, column: Column) {
    && (forall k :: k in m ==> k != "" && IsFirstWith(rows, column, m[k], k))
    && (forall i :: 0 <= i < |rows| && Cell(rows[i], column) != "" ==> Cell(rows[i], column) in m)
  }

  ghost predicate UppercaseMapFrom(upper: map<string, nat>, exact: map<string, nat>) {
    && (forall k :: k in exact ==> Upper(k) in upper && upper[Upper(k)] == exact[k])
    && (forall k :: k in upper ==> exists u :: u in exact && Upper(u) == k)
  }

  ghost predicate EnglishMapFrom(m: map<string, nat>, rows: seq<Row>) {
    && (forall i, name :: 0 <= i < |rows| && name in Split(rows[i].allEnglishDerivedAbbreviations, ',')
                          ==> name in m && m[name] == i)
    && (forall k :: k in m ==> (m[k] < |rows| && k in Split(rows[m[k]].allEnglishDerivedAbbreviations, ',')))
  }

  lemma FirstWinsMapFrom(m: map<string, nat>, entries: seq<(string, nat)>, rows: seq<Row>, column: Column)
    requires FirstWinsFrom(entries, rows, column)
    requires m.Keys == KeySet(entries)
    requires forall i :: 0 <= i < |entries| ==> m[entries[i].0] == entries[i].1
    ensures FirstWinsMap(m, rows, column)
  {
    forall k | k in m
      ensures k != "" && IsFirstWith(rows, column, m[k], k)
    {
      var i :| 0 <= i < |entries| && entries[i].0 == k;
      assert entries[i] in entries;
    }
    forall i | 0 <= i < |rows| && Cell(rows[i], column) != ""
      ensures Cell(rows[i], column) in m
    {
      KeyPresent(entries, rows, column, Cell(rows[i], column), i);
    }
  }

  /** The intermediate values of a successful generation. */
  lemma BuildParts(rows: seq<Row>) returns (c: Collected)
    requires Build(rows).Ok?
    ensures Collect(rows) == Ok(c) && CollectedFrom(c, rows)
    ensures Assemble(c) == Build(rows)
  {
    c := Collect(rows).value;
  }

  lemma AssembleParts(c: Collected)
    requires Assemble(c).Ok?
    ensures var t := Assemble(c).value;
            && t.books == c.entries
            && PhfMap(ReferenceTable, IndexedEntries(c.referenceAbbreviations)) == Ok(t.referenceMap)
            && PhfMap(UsfmTable, c.usfmEntries) == Ok(t.usfmMap)
            && PhfMap(UppercaseUsfmTable, UppercaseEntries(c.usfmEntries)) == Ok(t.uppercaseUsfmMap)
            && PhfMap(OsisTable, c.osisEntries) == Ok(t.osisMap)
            && PhfMap(EnglishNameTable, c.englishEntries) == Ok(t.englishNameMap)
  {
  }

  lemma BuildBooks(rows: seq<Row>)
    requires Build(rows).Ok?
    ensures BooksFrom(Build(rows).value, rows)
  {
    var c := BuildParts(rows);
    AssembleParts(c);
  }

  lemma BuildReferenceMap(rows: seq<Row>)
    requires Build(rows).Ok?
    ensures ReferenceMapFrom(Build(rows).value.referenceMap, rows)
  {
    var c := BuildParts(rows);
    AssembleParts(c);
    var m := Build(rows).value.referenceMap;
    var refEntries := IndexedEntries(c.referenceAbbreviations);
    ReferencePart(c, m);
    forall k | k in m
      ensures m[k] < |rows| && rows[m[k]].bosReferenceAbbreviation == k
    {
      var i :| 0 <= i < |refEntries| && refEntries[i].0 == k;
    }
  }

  lemma BuildUsfmMap(rows: seq<Row>)
    requires Build(rows).Ok?
    ensures FirstWinsMap(Build(rows).value.usfmMap, rows, UsfmColumn)
  {
    var c := BuildParts(rows);
    AssembleParts(c);
    FirstWinsMapFrom(Build(rows).value.usfmMap, c.usfmEntries, rows, UsfmColumn);
  }

  lemma BuildOsisMap(rows: seq<Row>)
    requires Build(rows).Ok?
    ensures FirstWinsMap(Build(rows).value.osisMap, rows, OsisColumn)
  {
    var c := BuildParts(rows);
    AssembleParts(c);
    FirstWinsMapFrom(Build(rows).value.osisMap, c.osisEntries, rows, OsisColumn);
  }

  lemma BuildUppercaseMap(rows: seq<Row>)
    requires Build(rows).Ok?
    ensures UppercaseMapFrom(Build(rows).value.uppercaseUsfmMap, Build(rows).value.usfmMap)
  {
    var c := BuildParts(rows);
    AssembleParts(c);
    var t := Build(rows).value;
    EntriesPart(UsfmTable, c.usfmEntries, t.usfmMap);
    EntriesPart(UppercaseUsfmTable, UppercaseEntries(c.usfmEntries), t.uppercaseUsfmMap);
    UppercaseMapOf(c.usfmEntries, t.usfmMap, t.uppercaseUsfmMap);
  }

  /** What a successful PhfMap says about the map it builds. */
  lemma EntriesPart(table: TableName, entries: seq<(string, nat)>, m: map<string, nat>)
    requires PhfMap(table, entries) == Ok(m)
    ensures m.Keys == KeySet(entries)
    ensures forall j :: 0 <= j < |entries| ==> m[entries[j].0] == entries[j].1
  {
  }

  lemma UppercaseMapOf(entries: seq<(string, nat)>, usfm: map<string, nat>, upper: map<string, nat>)
    requires usfm.Keys == KeySet(entries)
    requires forall j :: 0 <= j < |entries| ==> usfm[entries[j].0] == entries[j].1
    requires upper.Keys == KeySet(UppercaseEntries(entries))
    requires forall j :: 0 <= j < |entries| ==> upper[UppercaseEntries(entries)[j].0] == UppercaseEntries(entries)[j].1
    ensures UppercaseMapFrom(upper, usfm)
  {
    var upperEntries := UppercaseEntries(entries);
    forall k | k in usfm
      ensures Upper(k) in upper && upper[Upper(k)] == usfm[k]
    {
      var i :| 0 <= i < |entries| && entries[i].0 == k;
      assert upperEntries[i] == (Upper(k), entries[i].1);
    }
    forall k | k in upper
      ensures exists u :: u in usfm && Upper(u) == k
    {
      var i :| 0 <= i < |upperEntries| && upperEntries[i].0 == k;
      assert entries[i].0 in KeySet(entries);
    }
  }

  lemma BuildEnglishMap(rows: seq<Row>)
    requires Build(rows).Ok?
    ensures EnglishMapFrom(Build(rows).value.englishNameMap, rows)
  {
    var c := BuildParts(rows);
    AssembleParts(c);
    var m := Build(rows).value.englishNameMap;
    EntriesPart(EnglishNameTable, c.englishEntries, m);
    EnglishMapOf(c.englishEntries, rows, m);
  }

  lemma EnglishMapOf(entries: seq<(string, nat)>, rows: seq<Row>, m: map<string, nat>)
    requires EnglishFrom(entries, rows)
    requires m.Keys == KeySet(entries)
    requires forall j :: 0 <= j < |entries| ==> m[entries[j].0] == entries[j].1
    ensures EnglishMapFrom(m, rows)
  {
    forall i, name | 0 <= i < |rows| && name in Split(rows[i].allEnglishDerivedAbbreviations, ',')
      ensures name in m && m[name] == i
    {
      assert (name, i as nat) in entries;
      var j :| 0 <= j < |entries| && entries[j] == (name, i);
    }
    forall k | k in m
      ensures m[k] < |rows| && k in Split(rows[m[k]].allEnglishDerivedAbbreviations, ',')
    {
      var j :| 0 <= j < |entries| && entries[j].0 == k;
      assert entries[j] in entries;
    }
  }

  lemma ReferencePart(c: Collected, m: map<string, nat>)
    requires PhfMap(ReferenceTable, IndexedEntries(c.referenceAbbreviations)) == Ok(m)
    ensures m.Keys == KeySet(IndexedEntries(c.referenceAbbreviations))
    ensures forall j :: 0 <= j < |c.referenceAbbreviations| ==> c.referenceAbbreviations[j] in m && m[c.referenceAbbreviations[j]] == j
  {
    var e := IndexedEntries(c.referenceAbbreviations);
    forall j | 0 <= j < |c.referenceAbbreviations|
      ensures c.referenceAbbreviations[j] in m && m[c.referenceAbbreviations[j]] == j
    {
      assert e[j] == (c.referenceAbbreviations[j], j);
    }
  }

  /** The generated tables never send a resolver out of the array. */
  lemma BuildValid(rows: seq<Row>)
    requires Build(rows).Ok?
    ensures Build(rows).value.Valid()
    ensures |Build(rows).value.books| == |rows|
  {
    var t := Build(rows).value;
    BuildBooks(rows);
    BuildReferenceMap(rows);
    BuildUsfmMap(rows);
    BuildOsisMap(rows);
    BuildUppercaseMap(rows);
    BuildEnglishMap(rows);
    forall k | k in t.uppercaseUsfmMap
      ensures t.uppercaseUsfmMap[k] < |t.books|
    {
      var u :| u in t.usfmMap && Upper(u) == k;
    }
  }

  /** Each row reads back from its array entry. */
  lemma BuildKeepsRows(rows: seq<Row>, i: nat)
    requires Build(rows).Ok? && i < |rows|
    ensures i < |Build(rows).value.books|
    ensures DecodeEntry(Build(rows).value.books[i]) == rows[i]
  {
    BuildBooks(rows);
    EncodeRowRoundTrip(rows[i], i);
  }

  /** The reference abbreviation of book `index` is a valid code. */
  lemma ReferenceOfIsValid(rows: seq<Row>, index: nat)
    requires Build(rows).Ok? && index < |Build(rows).value.books|
    ensures IsValidReferenceAbbreviation(Build(rows).value, ReferenceOf(Build(rows).value, index))
  {
    BuildBooks(rows);
    BuildReferenceMap(rows);
    assert EncodeRow(rows[index], index) == Ok(Build(rows).value.books[index]);
  }

  /** On generated tables, a code is valid exactly when some row carries it
      as its reference abbreviation, spelled exactly so. */
  lemma ValidExactlyRowCodes(rows: seq<Row>, code: string)
    requires Build(rows).Ok?
    ensures IsValidReferenceAbbreviation(Build(rows).value, code)
            <==> exists i :: 0 <= i < |rows| && rows[i].bosReferenceAbbreviation == code
  {
    BuildReferenceMap(rows);
    var m := Build(rows).value.referenceMap;
    if code in m {
      assert rows[m[code]].bosReferenceAbbreviation == code;
    }
  }

  /** Every code the USFM, OSIS and English resolvers return is a valid
      reference abbreviation. */
  lemma ResolvedCodesAreValid(rows: seq<Row>, key: string)
    requires Build(rows).Ok?
    ensures Build(rows).value.Valid()
    ensures var t := Build(rows).value;
            && (UsfmAbbrevToReferenceAbbrev(t, key).Ok? ==> IsValidReferenceAbbreviation(t, UsfmAbbrevToReferenceAbbrev(t, key).value))
            && (OsisAbbrevToReferenceAbbrev(t, key).Ok? ==> IsValidReferenceAbbreviation(t, OsisAbbrevToReferenceAbbrev(t, key).value))
            && (EnglishNameToReferenceAbbrev(t, key).Some? ==> IsValidReferenceAbbreviation(t, EnglishNameToReferenceAbbrev(t, key).value))
  {
    var t := Build(rows).value;
    BuildValid(rows);
    if key in t.usfmMap {
      ReferenceOfIsValid(rows, t.usfmMap[key]);
    } else if key in t.uppercaseUsfmMap {
      ReferenceOfIsValid(rows, t.uppercaseUsfmMap[key]);
    }
    if key in t.osisMap {
      ReferenceOfIsValid(rows, t.osisMap[key]);
    }
    var adjusted := Upper(key);
    if adjusted in t.englishNameMap {
      ReferenceOfIsValid(rows, t.englishNameMap[adjusted]);
    } else if TryRules(t, adjusted, 0).Some? {
      var k :| 0 <= k < |OrdinalRules| && StartsWith(adjusted, OrdinalRules[k].0)
               && TryRules(t, adjusted, 0) == EnglishLookup(t, Candidate(adjusted, k));
      ReferenceOfIsValid(rows, t.englishNameMap[Candidate(adjusted, k)]);
    }
  }

  /** Reference→USFM on row `i`'s own code gives its USFM cell, `None` when
      the cell is empty. */
  lemma ReferenceToUsfmOfRow(rows: seq<Row>, i: nat)
    requires Build(rows).Ok? && i < |rows|
    ensures Build(rows).value.Valid()
    ensures ReferenceAbbrevToUsfmAbbrev(Build(rows).value, rows[i].bosReferenceAbbreviation)
            == Ok(OptionalCell(rows[i].usfmAbbreviation))
  {
    BuildValid(rows);
    BuildBooks(rows);
    BuildReferenceMap(rows);
  }

  /** Round trip: for a row with a USFM abbreviation `u`, reference→USFM gives
      `u`, and USFM→reference on `u` gives the row's own code back exactly
      when it is the first row carrying `u` (a later row gets the first
      row's code). */
  lemma UsfmRoundTrip(rows: seq<Row>, i: nat)
    requires Build(rows).Ok? && i < |rows| && rows[i].usfmAbbreviation != ""
    ensures Build(rows).value.Valid()
    ensures var t := Build(rows).value;
            var u := rows[i].usfmAbbreviation;
            && ReferenceAbbrevToUsfmAbbrev(t, rows[i].bosReferenceAbbreviation) == Ok(Some(u))
            && (UsfmAbbrevToReferenceAbbrev(t, u) == Ok(rows[i].bosReferenceAbbreviation)
                <==> IsFirstWith(rows, UsfmColumn, i, u))
  {
    var t := Build(rows).value;
    var u := rows[i].usfmAbbreviation;
    ReferenceToUsfmOfRow(rows, i);
    BuildBooks(rows);
    BuildUsfmMap(rows);
    assert Cell(rows[i], UsfmColumn) == u;
    var k := t.usfmMap[u];
    assert IsFirstWith(rows, UsfmColumn, k, u);
    assert EncodeRow(rows[k], k) == Ok(t.books[k]);
    assert UsfmAbbrevToReferenceAbbrev(t, u) == Ok(rows[k].bosReferenceAbbreviation);
    if IsFirstWith(rows, UsfmColumn, i, u) {
      assert k == i;
    }
  }

  /** A USFM code and its upper-cased form resolve to the same book, as long
      as the upper-cased form is not itself a different exact USFM code. */
  lemma UsfmCaseFallback(rows: seq<Row>, u: string)
    requires Build(rows).Ok?
    requires u in Build(rows).value.usfmMap && Upper(u) !in Build(rows).value.usfmMap
    ensures Build(rows).value.Valid()
    ensures UsfmAbbrevToReferenceAbbrev(Build(rows).value, Upper(u)) == UsfmAbbrevToReferenceAbbrev(Build(rows).value, u)
  {
    BuildValid(rows);
    BuildUppercaseMap(rows);
  }

  /** The uppercase map is consulted with the raw input: a string with a
      lower-case letter that is not an exact USFM code does not resolve,
      even when its upper-cased form would. */
  lemma UsfmFallbackUsesRawInput(rows: seq<Row>, s: string)
    requires Build(rows).Ok?
    requires s !in Build(rows).value.usfmMap && !IsUpperCased(s)
    ensures Build(rows).value.Valid()
    ensures UsfmAbbrevToReferenceAbbrev(Build(rows).value, s) == Err(AbbrevNotFound(Usfm, s))
  {
    var t := Build(rows).value;
    BuildValid(rows);
    UppercaseKeysAreUpperCased(rows);
  }

  /** Every key of the uppercase USFM map is upper-cased. */
  lemma UppercaseKeysAreUpperCased(rows: seq<Row>)
    requires Build(rows).Ok?
    ensures forall k :: k in Build(rows).value.uppercaseUsfmMap ==> IsUpperCased(k)
  {
    var t := Build(rows).value;
    BuildUppercaseMap(rows);
    forall k | k in t.uppercaseUsfmMap
      ensures IsUpperCased(k)
    {
      var u :| u in t.usfmMap && Upper(u) == k;
      UpperFixedPoints(u);
    }
  }

  /** Every English form of a row, typed in any ASCII case, resolves to that
      row's code when the form is stored upper-cased. */
  lemma EnglishFormResolves(rows: seq<Row>, i: nat, name: string, typed: string)
    requires Build(rows).Ok? && i < |rows|
    requires name in Split(rows[i].allEnglishDerivedAbbreviations, ',')
    requires Upper(typed) == name
    ensures Build(rows).value.Valid()
    ensures EnglishNameToReferenceAbbrev(Build(rows).value, typed) == Some(rows[i].bosReferenceAbbreviation)
  {
    var t := Build(rows).value;
    BuildValid(rows);
    EnglishKeyOf(rows, i, name);
    RowCodeKept(rows, i);
    ExactEnglishHit(t, typed, i);
  }

  /** Every English form of row `i` is a key of the English map, sent to `i`. */
  lemma EnglishKeyOf(rows: seq<Row>, i: nat, name: string)
    requires Build(rows).Ok? && i < |rows|
    requires name in Split(rows[i].allEnglishDerivedAbbreviations, ',')
    ensures name in Build(rows).value.englishNameMap && Build(rows).value.englishNameMap[name] == i
  {
    BuildEnglishMap(rows);
    EnglishMapHit(Build(rows).value.englishNameMap, rows, i, name);
  }

  lemma EnglishMapHit(m: map<string, nat>, rows: seq<Row>, i: nat, name: string)
    requires EnglishMapFrom(m, rows) && i < |rows|
    requires name in Split(rows[i].allEnglishDerivedAbbreviations, ',')
    ensures name in m && m[name] == i
  {
  }

  /** Book `i` carries row `i`'s reference abbreviation. */
  lemma RowCodeKept(rows: seq<Row>, i: nat)
    requires Build(rows).Ok? && i < |rows|
    ensures i < |Build(rows).value.books|
    ensures ReferenceOf(Build(rows).value, i) == rows[i].bosReferenceAbbreviation
  {
    BuildBooks(rows);
    assert EncodeRow(rows[i], i) == Ok(Build(rows).value.books[i]);
  }

  /** An upper-cased name that is a key of the English map answers with
      the code of the book it is sent to. */
  lemma ExactEnglishHit(t: Tables, typed: string, i: nat)
    requires t.Valid() && Upper(typed) in t.englishNameMap && t.englishNameMap[Upper(typed)] == i
    ensures i < |t.books|
    ensures EnglishNameToReferenceAbbrev(t, typed) == Some(ReferenceOf(t, i))
  {
  }

  /** The English map's keys are stored as written in the table, while the
      resolver only ever looks up upper-cased keys (the upper-cased name, or
      a rule's candidate built from it): whatever the name, the key that
      answers is upper-cased, so a stored form with a lower-case letter
      never answers. */
  lemma EnglishLowerCaseFormsUnreachable(t: Tables, name: string)
    requires t.Valid()
    ensures EnglishNameToReferenceAbbrev(t, name).Some? ==>
              exists key :: key in t.englishNameMap && IsUpperCased(key)
                            && EnglishNameToReferenceAbbrev(t, name) == EnglishLookup(t, key)
  {
    var adjusted := Upper(name);
    UpperFixedPoints(name);
    if adjusted in t.englishNameMap {
      assert EnglishNameToReferenceAbbrev(t, name) == EnglishLookup(t, adjusted);
    } else if EnglishNameToReferenceAbbrev(t, name).Some? {
      var k :| 0 <= k < |OrdinalRules| && StartsWith(adjusted, OrdinalRules[k].0)
               && TryRules(t, adjusted, 0) == EnglishLookup(t, Candidate(adjusted, k));
      var c := Candidate(adjusted, k);
      assert IsUpperCased(c) by {
        assert forall m :: 0 <= m < |adjusted| ==> !IsLowerAscii(adjusted[m]);
        assert IsUpperCased(OrdinalRules[k].1);
      }
      assert c in t.englishNameMap;
    }
  }

  /** Two rows whose USFM abbreviations differ but agree once upper-cased
      (`Mat` and `MAT`) give the uppercase map one key twice, and
      `phf_map!` refuses it: the generation fails. */
  lemma UppercaseCollisionFails(rows: seq<Row>, i: nat, j: nat)
    requires i < |rows| && j < |rows|
    requires rows[i].usfmAbbreviation != "" && rows[j].usfmAbbreviation != ""
    requires rows[i].usfmAbbreviation != rows[j].usfmAbbreviation
    requires Upper(rows[i].usfmAbbreviation) == Upper(rows[j].usfmAbbreviation)
    ensures Build(rows).Err?
  {
    if Collect(rows).Ok? {
      var c := Collect(rows).value;
      var a, b := rows[i].usfmAbbreviation, rows[j].usfmAbbreviation;
      KeyPresent(c.usfmEntries, rows, UsfmColumn, a, i);
      KeyPresent(c.usfmEntries, rows, UsfmColumn, b, j);
      var x :| 0 <= x < |c.usfmEntries| && c.usfmEntries[x].0 == a;
      var y :| 0 <= y < |c.usfmEntries| && c.usfmEntries[y].0 == b;
      assert x != y;
      UppercaseEntriesCollide(c.usfmEntries, x, y);
      AssembleFailsOnUppercase(c);
      assert Assemble(c).Err?;
    }
  }

  lemma UppercaseEntriesCollide(entries: seq<(string, nat)>, x: nat, y: nat)
    requires x < |entries| && y < |entries| && x != y
    requires Upper(entries[x].0) == Upper(entries[y].0)
    ensures PhfMap(UppercaseUsfmTable, UppercaseEntries(entries)).Err?
  {
    var upper := UppercaseEntries(entries);
    if x < y {
      assert upper[x].0 == upper[y].0;
    } else {
      assert upper[y].0 == upper[x].0;
    }
  }

  lemma AssembleFailsOnUppercase(c: Collected)
    requires PhfMap(UppercaseUsfmTable, UppercaseEntries(c.usfmEntries)).Err?
    ensures Assemble(c).Err?
  {
  }
}

=== FILE: fixture.dfy ===
/** A four-book table generated from four rows, on which the lookups give
    the answers the unit-test examples of `lib.src.rs` (the `tests` module)
    expect on these four books. */
module Fixture {
  import opened Wrappers
  import opened Text
  import opened BookTable
  import opened Lookup
  import BooksCodesJs

  /** A data row with only the cells the lookups read filled in. */
  function BookRow(reference: string, chapters: string, usfm: string, osis: string, english: string): Row {
    Row("", "", "", reference, "", "", chapters, "", "", osis, "", "", usfm,
        "", "", "", "", "", "", "", "", "", "", "", "", "", "", "", english)
  }

  /** The array entry the script prints for such a row. */
  function BookEntry(reference: string, chapters: OptionalNumberOrTwoNumbers, usfm: Option<string>,
                     osis: Option<string>, english: string): Entry {
    Entry("", "", "", reference, "", "", chapters, None, None, osis, None, None, usfm,
          None, None, None, None, None, None, None, None, None, None, [""], [], None, None, None, english)
  }

  /** Rows EXO, SAM (no chapters, USFM or OSIS code), KI1 and MAT (USFM
      `Mat`), with their English forms. */
  function SampleRow(i: nat): Row
    requires i < 4
  {
    if i == 0 then BookRow("EXO", "40", "Exo", "Exod", "EXODUS,EXO")
    else if i == 1 then BookRow("SAM", "", "", "", "SAMUEL")
    else if i == 2 then BookRow("KI1", "22", "1Ki", "1Kgs", "1 KINGS,1KINGS")
    else BookRow("MAT", "28", "Mat", "Matt", "MATTHEW")
  }

  /** The entry the script prints for each row. */
  function SampleEntry(i: nat): Entry
    requires i < 4
  {
    if i == 0 then BookEntry("EXO", Number("40"), Some("Exo"), Some("Exod"), "EXODUS,EXO")
    else if i == 1 then BookEntry("SAM", NoNumber, None, None, "SAMUEL")
    else if i == 2 then BookEntry("KI1", Number("22"), Some("1Ki"), Some("1Kgs"), "1 KINGS,1KINGS")
    else BookEntry("MAT", Number("28"), Some("Mat"), Some("Matt"), "MATTHEW")
  }

  function SampleRows(): seq<Row> {
    [SampleRow(0), SampleRow(1), SampleRow(2), SampleRow(3)]
  }

  /** The tables generated from `SampleRows` (see `SampleIsBuilt`). */
  function Sample(): (t: Tables)
    ensures t.Valid()
  {
    Tables(
      [SampleEntry(0), SampleEntry(1), SampleEntry(2), SampleEntry(3)],
      map["EXO" := 0, "SAM" := 1, "KI1" := 2, "MAT" := 3],
      map["Exo" := 0, "1Ki" := 2, "Mat" := 3],
      map["EXO" := 0, "1KI" := 2, "MAT" := 3],
      map["Exod" := 0, "1Kgs" := 2, "Matt" := 3],
      map["EXODUS" := 0, "EXO" := 0, "SAMUEL" := 1, "1 KINGS" := 2, "1KINGS" := 2, "MATTHEW" := 3])
  }

  /** The loop's state after the first `n` rows. */
  function CollectedAfter(n: nat): Collected
    requires n <= 4
  {
    if n == 0 then
      Collected([], [], [], [], [])
    else if n == 1 then
      Collected([SampleEntry(0)], ["EXO"], [("EXODUS", 0), ("EXO", 0)], [("Exo", 0)], [("Exod", 0)])
    else if n == 2 then
      Collected([SampleEntry(0), SampleEntry(1)], ["EXO", "SAM"],
                [("EXODUS", 0), ("EXO", 0), ("SAMUEL", 1)], [("Exo", 0)], [("Exod", 0)])
    else if n == 3 then
      Collected([SampleEntry(0), SampleEntry(1), SampleEntry(2)], ["EXO", "SAM", "KI1"],
                [("EXODUS", 0), ("EXO", 0), ("SAMUEL", 1), ("1 KINGS", 2), ("1KINGS", 2)],
                [("Exo", 0), ("1Ki", 2)], [("Exod", 0), ("1Kgs", 2)])
    else
      Collected([SampleEntry(0), SampleEntry(1), SampleEntry(2), SampleEntry(3)], ["EXO", "SAM", "KI1", "MAT"],
                [("EXODUS", 0), ("EXO", 0), ("SAMUEL", 1), ("1 KINGS", 2), ("1KINGS", 2), ("MATTHEW", 3)],
                [("Exo", 0), ("1Ki", 2), ("Mat", 3)], [("Exod", 0), ("1Kgs", 2), ("Matt", 3)])
  }

  /** `Sample` is what the generation makes of `SampleRows`. */
  lemma SampleIsBuilt()
    ensures Build(SampleRows()) == Ok(Sample())
  {
    SampleCollects();
    SampleAssembles(CollectedAfter(4), Sample());
  }

  /** One more row of the loop. */
  lemma CollectNext(rows: seq<Row>, n: nat, c: Collected)
    requires n < |rows| && Collect(rows[..n]) == Ok(c)
    ensures Collect(rows[..n + 1]) == Step(c, rows[n], n)
  {
    assert rows[..n + 1][..n] == rows[..n];
  }

  /** A step that passes the script's assertions, given its entry, the
      row's English forms and the state it leads to. */
  lemma StepTo(c: Collected, row: Row, n: nat, entry: Entry, names: seq<string>, next: Collected)
    requires EncodeRow(row, n) == Ok(entry)
    requires row.bosReferenceAbbreviation !in c.referenceAbbreviations
    requires Split(row.allEnglishDerivedAbbreviations, ',') == names
    requires next.entries == c.entries + [entry]
    requires next.referenceAbbreviations == c.referenceAbbreviations + [row.bosReferenceAbbreviation]
    requires next.englishEntries == c.englishEntries + EnglishPairs(names, n)
    requires next.usfmEntries == FirstWins(c.usfmEntries, row.usfmAbbreviation, n)
    requires next.osisEntries == FirstWins(c.osisEntries, row.osisAbbreviation, n)
    ensures Step(c, row, n) == Ok(next)
  {
  }

  /** Each row's step, from the state before it to the state after it.
      (The states are parameters so that the step is not unfolded on
      literal arguments.) */
  lemma SampleStep(n: nat, c: Collected, row: Row, next: Collected)
    requires n < 4 && c == CollectedAfter(n) && row == SampleRow(n) && next == CollectedAfter(n + 1)
    ensures Step(c, row, n) == Ok(next)
  {
    SampleEncodes(n);
    SampleSplits(n);
    SampleNext(n);
    SampleFresh(n);
    StepTo(c, row, n, SampleEntry(n), SampleNames(n), next);
  }

  /** The English forms of each row. */
  function SampleNames(n: nat): seq<string>
    requires n < 4
  {
    if n == 0 then ["EXODUS", "EXO"]
    else if n == 1 then ["SAMUEL"]
    else if n == 2 then ["1 KINGS", "1KINGS"]
    else ["MATTHEW"]
  }

  lemma SampleEncodes(n: nat)
    requires n < 4
    ensures EncodeRow(SampleRow(n), n) == Ok(SampleEntry(n))
  {
    if n == 0 {
      EncodeBookRow("EXO", "40", "Exo", "Exod", "EXODUS,EXO", 0, Number("40"));
    } else if n == 1 {
      EncodeBookRow("SAM", "", "", "", "SAMUEL", 1, NoNumber);
    } else if n == 2 {
      EncodeBookRow("KI1", "22", "1Ki", "1Kgs", "1 KINGS,1KINGS", 2, Number("22"));
    } else {
      EncodeBookRow("MAT", "28", "Mat", "Matt", "MATTHEW", 3, Number("28"));
    }
  }

  /** The entry printed for a row of this shape. */
  lemma EncodeBookRow(reference: string, chapters: string, usfm: string, osis: string, english: string,
                      n: nat, encoded: OptionalNumberOrTwoNumbers)
    requires EncodeChapters(chapters, n) == Ok(encoded)
    ensures EncodeRow(BookRow(reference, chapters, usfm, osis, english), n)
            == Ok(BookEntry(reference, encoded, OptionalCell(usfm), OptionalCell(osis), english))
  {
    assert Split("", ',') == [""];
  }

  lemma SampleSplits(n: nat)
    requires n < 4
    ensures Split(SampleRow(n).allEnglishDerivedAbbreviations, ',') == SampleNames(n)
  {
    if n == 0 {
      SplitTwo("EXODUS", "EXO");
      assert SampleRow(0).allEnglishDerivedAbbreviations == "EXODUS" + [','] + "EXO";
    } else if n == 1 {
      SplitFree("SAMUEL", ',');
    } else if n == 2 {
      SplitTwo("1 KINGS", "1KINGS");
      assert SampleRow(2).allEnglishDerivedAbbreviations == "1 KINGS" + [','] + "1KINGS";
    } else {
      SplitFree("MATTHEW", ',');
    }
  }

  /** A cell of two comma-separated forms. */
  lemma SplitTwo(a: string, b: string)
    requires ',' !in a && ',' !in b
    ensures Split(a + [','] + b, ',') == [a, b]
  {
    SplitAt(a, b, ',');
    SplitFree(b, ',');
  }

  /** The state a passing step makes of `CollectedAfter(n)` and row `n`:
      the entry and abbreviation appended, the English pairs added, and the
      USFM and OSIS codes added when new. */
  lemma SampleNext(n: nat)
    requires n < 4
    ensures CollectedAfter(n + 1).entries == CollectedAfter(n).entries + [SampleEntry(n)]
    ensures CollectedAfter(n + 1).referenceAbbreviations
            == CollectedAfter(n).referenceAbbreviations + [SampleRow(n).bosReferenceAbbreviation]
    ensures CollectedAfter(n + 1).englishEntries == CollectedAfter(n).englishEntries + EnglishPairs(SampleNames(n), n)
    ensures CollectedAfter(n + 1).usfmEntries == FirstWins(CollectedAfter(n).usfmEntries, SampleRow(n).usfmAbbreviation, n)
    ensures CollectedAfter(n + 1).osisEntries == FirstWins(CollectedAfter(n).osisEntries, SampleRow(n).osisAbbreviation, n)
  {
    SampleNextEntries(n);
    SampleNextEnglish(n);
    SampleNextCodes(n);
  }

  lemma SampleNextEntries(n: nat)
    requires n < 4
    ensures CollectedAfter(n + 1).entries == CollectedAfter(n).entries + [SampleEntry(n)]
    ensures CollectedAfter(n + 1).referenceAbbreviations
            == CollectedAfter(n).referenceAbbreviations + [SampleRow(n).bosReferenceAbbreviation]
  {
  }

  lemma SampleNextEnglish(n: nat)
    requires n < 4
    ensures CollectedAfter(n + 1).englishEntries == CollectedAfter(n).englishEntries + EnglishPairs(SampleNames(n), n)
  {
  }

  lemma SampleNextCodes(n: nat)
    requires n < 4
    ensures CollectedAfter(n + 1).usfmEntries == FirstWins(CollectedAfter(n).usfmEntries, SampleRow(n).usfmAbbreviation, n)
    ensures CollectedAfter(n + 1).osisEntries == FirstWins(CollectedAfter(n).osisEntries, SampleRow(n).osisAbbreviation, n)
  {
    var c := CollectedAfter(n);
    if n == 2 {
      FirstWinsNew(c.usfmEntries, "1Ki", 2);
      FirstWinsNew(c.osisEntries, "1Kgs", 2);
    } else if n == 3 {
      FirstWinsNew(c.usfmEntries, "Mat", 3);
      FirstWinsNew(c.osisEntries, "Matt", 3);
    }
  }

  /** No earlier row has the reference abbreviation of row `n`. */
  lemma SampleFresh(n: nat)
    requires n < 4
    ensures SampleRow(n).bosReferenceAbbreviation !in CollectedAfter(n).referenceAbbreviations
  {
  }

  /** An abbreviation that no entry has yet is appended. */
  lemma FirstWinsNew(entries: seq<(string, nat)>, key: string, n: nat)
    requires key != "" && forall i :: 0 <= i < |entries| ==> entries[i].0 != key
    ensures FirstWins(entries, key, n) == entries + [(key, n)]
  {
  }

  /** The loop over the rows, one row at a time. */
  lemma SampleCollects()
    ensures Collect(SampleRows()) == Ok(CollectedAfter(4))
  {
    var rows := SampleRows();
    assert Collect(rows[..0]) == Ok(CollectedAfter(0));
    for n := 0 to 4
      invariant Collect(rows[..n]) == Ok(CollectedAfter(n))
    {
      SampleStep(n, CollectedAfter(n), rows[n], CollectedAfter(n + 1));
      CollectNext(rows, n, CollectedAfter(n));
    }
    assert rows[..4] == rows;
  }

  /** The five maps over the collected entries. */
  lemma SampleAssembles(c: Collected, t: Tables)
    requires c == CollectedAfter(4) && t == Sample()
    ensures Assemble(c) == Ok(t)
  {
    ReferenceKeys(c, t);
    UsfmKeys(c, t);
    UppercaseKeys(c, t);
    OsisKeys(c, t);
    EnglishKeys(c, t);
    AssembleOf(c, t);
  }

  /** The entries a map is built from have distinct keys, exactly the map's
      keys, and the map's values. */
  predicate MapOfEntries(m: map<string, nat>, entries: seq<(string, nat)>) {
    && DistinctKeys(entries)
    && m.Keys == KeySet(entries)
    && forall i :: 0 <= i < |entries| ==> m[entries[i].0] == entries[i].1
  }

  /** `Assemble` gives the tables whose maps are those of the entries. */
  lemma AssembleOf(c: Collected, t: Tables)
    requires t.books == c.entries
    requires MapOfEntries(t.referenceMap, IndexedEntries(c.referenceAbbreviations))
    requires MapOfEntries(t.usfmMap, c.usfmEntries)
    requires MapOfEntries(t.uppercaseUsfmMap, UppercaseEntries(c.usfmEntries))
    requires MapOfEntries(t.osisMap, c.osisEntries)
    requires MapOfEntries(t.englishNameMap, c.englishEntries)
    ensures Assemble(c) == Ok(t)
  {
    PhfMapExactly(ReferenceTable, IndexedEntries(c.referenceAbbreviations), t.referenceMap);
    PhfMapExactly(UsfmTable, c.usfmEntries, t.usfmMap);
    PhfMapExactly(UppercaseUsfmTable, UppercaseEntries(c.usfmEntries), t.uppercaseUsfmMap);
    PhfMapExactly(OsisTable, c.osisEntries, t.osisMap);
    PhfMapExactly(EnglishNameTable, c.englishEntries, t.englishNameMap);
  }

  lemma ReferenceKeys(c: Collected, t: Tables)
    requires c == CollectedAfter(4) && t == Sample()
    ensures MapOfEntries(t.referenceMap, IndexedEntries(c.referenceAbbreviations))
  {
    IndexedFour("EXO", "SAM", "KI1", "MAT");
    MapOfFour("EXO", "SAM", "KI1", "MAT", 0, 1, 2, 3);
  }

  lemma UsfmKeys(c: Collected, t: Tables)
    requires c == CollectedAfter(4) && t == Sample()
    ensures MapOfEntries(t.usfmMap, c.usfmEntries)
  {
    MapOfThree("Exo", "1Ki", "Mat", 0, 2, 3);
  }

  lemma UppercaseKeys(c: Collected, t: Tables)
    requires c == CollectedAfter(4) && t == Sample()
    ensures MapOfEntries(t.uppercaseUsfmMap, UppercaseEntries(c.usfmEntries))
  {
    UppercaseThree("Exo", "1Ki", "Mat", 0, 2, 3);
    UpperUsfm();
    MapOfThree("EXO", "1KI", "MAT", 0, 2, 3);
  }

  lemma UpperUsfm()
    ensures Upper("Exo") == "EXO" && Upper("1Ki") == "1KI" && Upper("Mat") == "MAT"
  {
  }

  lemma OsisKeys(c: Collected, t: Tables)
    requires c == CollectedAfter(4) && t == Sample()
    ensures MapOfEntries(t.osisMap, c.osisEntries)
  {
    MapOfThree("Exod", "1Kgs", "Matt", 0, 2, 3);
  }

  lemma EnglishKeys(c: Collected, t: Tables)
    requires c == CollectedAfter(4) && t == Sample()
    ensures MapOfEntries(t.englishNameMap, c.englishEntries)
  {
    MapOfSix("EXODUS", "EXO", "SAMUEL", "1 KINGS", "1KINGS", "MATTHEW", 0, 0, 1, 2, 2, 3);
  }

  lemma IndexedFour(a: string, b: string, c: string, d: string)
    ensures IndexedEntries([a, b, c, d]) == [(a, 0), (b, 1), (c, 2), (d, 3)]
  {
  }

  lemma UppercaseThree(a: string, b: string, c: string, x: nat, y: nat, z: nat)
    ensures UppercaseEntries([(a, x), (b, y), (c, z)]) == [(Upper(a), x), (Upper(b), y), (Upper(c), z)]
  {
  }

  lemma MapOfThree(a: string, b: string, c: string, x: nat, y: nat, z: nat)
    requires a != b && a != c && b != c
    ensures MapOfEntries(map[a := x, b := y, c := z], [(a, x), (b, y), (c, z)])
  {
    var e := [(a, x), (b, y), (c, z)];
    assert e[0].0 == a && e[1].0 == b && e[2].0 == c;
  }

  lemma MapOfFour(a: string, b: string, c: string, d: string, w: nat, x: nat, y: nat, z: nat)
    requires a != b && a != c && a != d && b != c && b != d && c != d
    ensures MapOfEntries(map[a := w, b := x, c := y, d := z], [(a, w), (b, x), (c, y), (d, z)])
  {
    var e := [(a, w), (b, x), (c, y), (d, z)];
    assert e[0].0 == a && e[1].0 == b && e[2].0 == c && e[3].0 == d;
  }

  lemma MapOfSix(a: string, b: string, c: string, d: string, e: string, f: string,
                 u: nat, v: nat, w: nat, x: nat, y: nat, z: nat)
    requires a != b && a != c && a != d && a != e && a != f
    requires b != c && b != d && b != e && b != f
    requires c != d && c != e && c != f
    requires d != e && d != f && e != f
    ensures MapOfEntries(map[a := u, b := v, c := w, d := x, e := y, f := z],
                         [(a, u), (b, v), (c, w), (d, x), (e, y), (f, z)])
  {
    var s := [(a, u), (b, v), (c, w), (d, x), (e, y), (f, z)];
    assert s[0].0 == a && s[1].0 == b && s[2].0 == c && s[3].0 == d && s[4].0 == e && s[5].0 == f;
  }

  /** `reference_abbrev_to_usfm_abbrev`: a USFM code, a valid book without
      one, and an unknown code. */
  lemma ReferenceExamples()
    ensures ReferenceAbbrevToUsfmAbbrev(Sample(), "EXO") == Ok(Some("Exo"))
    ensures ReferenceAbbrevToUsfmAbbrev(Sample(), "SAM") == Ok(None)
    ensures ReferenceAbbrevToUsfmAbbrev(Sample(), "XyZ") == Err(AbbrevNotFound(Reference, "XyZ"))
    ensures IsValidReferenceAbbreviation(Sample(), "SAM") && !IsValidReferenceAbbreviation(Sample(), "SIM")
  {
  }

  /** `usfm_abbrev_to_reference_abbrev`: exact hits, a hit in the uppercase
      map, and the lower-case spelling that neither map holds. */
  lemma UsfmExamples()
    ensures UsfmAbbrevToReferenceAbbrev(Sample(), "Exo") == Ok("EXO")
    ensures UsfmAbbrevToReferenceAbbrev(Sample(), "1Ki") == Ok("KI1")
    ensures UsfmAbbrevToReferenceAbbrev(Sample(), "MAT") == Ok("MAT")
    ensures UsfmAbbrevToReferenceAbbrev(Sample(), "mat") == Err(AbbrevNotFound(Usfm, "mat"))
    ensures UsfmAbbrevToReferenceAbbrev(Sample(), "XyZ") == Err(AbbrevNotFound(Usfm, "XyZ"))
  {
  }

  lemma OsisExamples()
    ensures OsisAbbrevToReferenceAbbrev(Sample(), "Exod") == Ok("EXO")
    ensures OsisAbbrevToReferenceAbbrev(Sample(), "XyZ") == Err(AbbrevNotFound(Osis, "XyZ"))
  {
  }

  /** `english_name_to_reference_abbrev`: any case of a listed form. */
  lemma EnglishExactExamples()
    ensures EnglishNameToReferenceAbbrev(Sample(), "Exodus") == Some("EXO")
    ensures EnglishNameToReferenceAbbrev(Sample(), "1 Kings") == Some("KI1")
  {
    assert Upper("Exodus") == "EXODUS";
    assert Upper("1 Kings") == "1 KINGS";
  }

  /** An ordinal rewrite: `I KINGS` becomes `1KINGS`. */
  lemma EnglishOrdinalExample()
    ensures EnglishNameToReferenceAbbrev(Sample(), "I Kings") == Some("KI1")
  {
    var adjusted := Upper("I Kings");
    assert adjusted == "I KINGS";
    assert StartsWith(adjusted, OrdinalRules[1].0);
    assert Candidate(adjusted, 1) == "1KINGS";
    var t := Sample();
    assert adjusted !in t.englishNameMap;
    assert EnglishLookup(t, "1KINGS") == Some("KI1");
    EnglishNameResolution(t, "I Kings");
  }

  /** A name that is neither listed nor starts with an ordinal. */
  lemma EnglishMissExample()
    ensures EnglishNameToReferenceAbbrev(Sample(), "XyZ") == None
  {
    var miss := Upper("XyZ");
    assert miss == "XYZ";
    forall k | 0 <= k < |OrdinalRules| ensures !StartsWith(miss, OrdinalRules[k].0) {
      assert OrdinalRules[k].0[0] != 'X';
    }
    EnglishNameResolution(Sample(), "XyZ");
  }

  /** `tidyBBB` on `SA1` and on `GEN`, as intended and as written. */
  lemma TidyExamples()
    ensures BooksCodesJs.TidyBbb("SA1") == "1SA"
    ensures BooksCodesJs.TidyBbb("GEN") == "GEN"
    ensures BooksCodesJs.TidyBbbAsWritten("SA1").Err?
  {
    assert "SA1"[..2] == "SA";
  }

  /** Genesis 1:1 and 1:2 under both keys, and the last verse of Psalm 119
      below the first of Psalm 120 under the intended key. */
  lemma SortKeyExamples()
    ensures BooksCodesJs.SortKeyAsWritten(1, 1, 1, 0) == 151510
    ensures BooksCodesJs.SortKeyAsWritten(1, 1, 2, 0) == 151520
    ensures BooksCodesJs.SortKey(1, 1, 1, 0) == 10010010
    ensures BooksCodesJs.SortKey(19, 119, 176, 1) < BooksCodesJs.SortKey(19, 120, 1, 0)
  {
  }
}

=== FILE: json_codes.dfy ===
/** The older JSON-backed lookups of `Rust/src/lib.rs`: exact-key lookups
    in dictionaries loaded from the derived JSON tables, where a value may be
    one string or a list of strings and a list stands for its first element.
    Loading the JSON (`load_from_json`) is not modelled; the dictionaries are
    given. */
module JsonCodes {
  import opened Wrappers
  import opened Text

  /** The untagged `StringOrListOfStrings`: one abbreviation or several. */
  datatype StringOrListOfStrings =
    | Abbreviation(abbreviation: string)
    | ListOfAbbreviations(abbreviations: seq<string>)

  /** `USFMAbbreviationEntry`; the reference number is a `u16` in 1..999. */
  datatype UsfmAbbreviationEntry = UsfmAbbreviationEntry(
    referenceNumber: nat,
    usfmAbbreviationOrAbbreviations: StringOrListOfStrings,
    usfmNumberStringOrStrings: Option<StringOrListOfStrings>)

  /** `USFMNumberEntry`. */
  datatype UsfmNumberEntry = UsfmNumberEntry(
    referenceNumber: nat,
    referenceAbbreviationOrAbbreviations: StringOrListOfStrings,
    usfmAbbreviationOrAbbreviations: StringOrListOfStrings)

  /** The two dictionaries of `BibleBooksCodes` these lookups read. */
  datatype BibleBooksCodes = BibleBooksCodes(
    usfmAbbreviationDict: map<string, UsfmAbbreviationEntry>,
    usfmNumberDict: map<string, UsfmNumberEntry>)

  /** What a lookup produces: a string, the boxed error message, or a panic
      (indexing the first element of an empty list). */
  datatype Outcome = Value(value: string) | Error(message: string) | Panic

  /** The collapse rule: a single string is itself, a list is its first
      element, and an empty list panics. */
  function Collapse(v: StringOrListOfStrings): (r: Outcome)
    ensures !r.Error?
    ensures r.Value? ==> (v.Abbreviation? && r.value == v.abbreviation)
                         || (v.ListOfAbbreviations? && |v.abbreviations| > 0 && r.value == v.abbreviations[0])
    ensures r.Panic? <==> v == ListOfAbbreviations([])
  {
    match v
    case Abbreviation(a) => Value(a)
    case ListOfAbbreviations(list) => if |list| == 0 then Panic else Value(list[0])
  }

  /** A one-element list collapses like the string it holds. */
  lemma CollapseSingleton(a: string, rest: seq<string>)
    ensures Collapse(ListOfAbbreviations([a] + rest)) == Collapse(Abbreviation(a))
  {
  }

  function InvalidAbbreviationMessage(key: string): string {
    "Invalid USFM abbreviation: '" + key + "'"
  }

  function InvalidNumberMessage(key: string): string {
    "Invalid USFM number: '" + key + "'"
  }

  /** Each message names its key: different keys never give the same
      message, and the two kinds of message never coincide. */
  lemma MessagesIdentifyKey(a: string, b: string)
    ensures InvalidAbbreviationMessage(a) == InvalidAbbreviationMessage(b) ==> a == b
    ensures InvalidNumberMessage(a) == InvalidNumberMessage(b) ==> a == b
    ensures InvalidAbbreviationMessage(a) != InvalidNumberMessage(b)
  {
    var head1, head2 := "Invalid USFM abbreviation: '", "Invalid USFM number: '";
    if InvalidAbbreviationMessage(a) == InvalidAbbreviationMessage(b) {
      var m := InvalidAbbreviationMessage(a);
      assert a == m[|head1|..|m| - 1];
      assert b == m[|head1|..|m| - 1];
    }
    if InvalidNumberMessage(a) == InvalidNumberMessage(b) {
      var m := InvalidNumberMessage(a);
      assert a == m[|head2|..|m| - 1];
      assert b == m[|head2|..|m| - 1];
    }
    assert InvalidAbbreviationMessage(a)[13] == 'a';
    assert InvalidNumberMessage(b)[13] == 'n';
  }

  /** `usfm_to_bbb`: an exact-key lookup in the USFM abbreviation dictionary,
      collapsing the entry's `USFMAbbreviationOrAbbreviations` field. The
      entry has no reference-abbreviation field, so despite the name the
      result is a USFM code. */
  function UsfmToBbb(codes: BibleBooksCodes, usfm: string): (r: Outcome)
    ensures r.Error? <==> usfm !in codes.usfmAbbreviationDict
    ensures r.Error? ==> r.message == InvalidAbbreviationMessage(usfm)
    ensures usfm in codes.usfmAbbreviationDict
            ==> r == Collapse(codes.usfmAbbreviationDict[usfm].usfmAbbreviationOrAbbreviations)
  {
    if usfm !in codes.usfmAbbreviationDict then
      Error(InvalidAbbreviationMessage(usfm))
    else
      Collapse(codes.usfmAbbreviationDict[usfm].usfmAbbreviationOrAbbreviations)
  }

  /** `usfm_num_to_usfm_abbrev`: exact-key lookup in the USFM number
      dictionary, collapsing the USFM abbreviation field. */
  function UsfmNumToUsfmAbbrev(codes: BibleBooksCodes, number: string): (r: Outcome)
    ensures r.Error? <==> number !in codes.usfmNumberDict
    ensures r.Error? ==> r.message == InvalidNumberMessage(number)
    ensures number in codes.usfmNumberDict
            ==> r == Collapse(codes.usfmNumberDict[number].usfmAbbreviationOrAbbreviations)
  {
    if number !in codes.usfmNumberDict then
      Error(InvalidNumberMessage(number))
    else
      Collapse(codes.usfmNumberDict[number].usfmAbbreviationOrAbbreviations)
  }

  /** `usfm_num_to_bbb`: the same lookup, collapsing the reference
      abbreviation field. */
  function UsfmNumToBbb(codes: BibleBooksCodes, number: string): (r: Outcome)
    ensures r.Error? <==> number !in codes.usfmNumberDict
    ensures r.Error? ==> r.message == InvalidNumberMessage(number)
    ensures number in codes.usfmNumberDict
            ==> r == Collapse(codes.usfmNumberDict[number].referenceAbbreviationOrAbbreviations)
  {
    if number !in codes.usfmNumberDict then
      Error(InvalidNumberMessage(number))
    else
      Collapse(codes.usfmNumberDict[number].referenceAbbreviationOrAbbreviations)
  }

  /** The two number lookups fail on the same keys, with the same message,
      and on a hit read the two fields of the same entry. */
  lemma NumberLookupsAgree(codes: BibleBooksCodes, number: string)
    ensures UsfmNumToBbb(codes, number).Error? <==> UsfmNumToUsfmAbbrev(codes, number).Error?
    ensures UsfmNumToBbb(codes, number).Error? ==> UsfmNumToBbb(codes, number) == UsfmNumToUsfmAbbrev(codes, number)
    ensures number in codes.usfmNumberDict ==>
              var e := codes.usfmNumberDict[number];
              && UsfmNumToBbb(codes, number) == Collapse(e.referenceAbbreviationOrAbbreviations)
              && UsfmNumToUsfmAbbrev(codes, number) == Collapse(e.usfmAbbreviationOrAbbreviations)
  {
  }

  /** No case normalisation: a key that differs from every dictionary key
      fails, whatever its case-insensitive match. */
  lemma LookupsAreExact(codes: BibleBooksCodes, key: string)
    requires key !in codes.usfmAbbreviationDict && Upper(key) in codes.usfmAbbreviationDict
    ensures UsfmToBbb(codes, key) == Error(InvalidAbbreviationMessage(key))
  {
  }
}

=== FILE: lookup.dfy ===
/** The resolution engine of the generated Rust library (`lib.src.rs`): the
    validity check, the reference→USFM, USFM→reference and OSIS→reference
    lookups with their typed miss, and the English-name resolver with its
    ordinal-prefix fallback, all over the tables `BookTable.Build` produces. */
module Lookup {
  import opened Wrappers
  import opened Text
  import opened BookTable

  /** The scheme whose map missed. */
  datatype Scheme = Reference | Usfm | Osis

  function SchemeName(scheme: Scheme): string {
    match scheme
    case Reference => "Reference"
    case Usfm => "USFM"
    case Osis => "OSIS"
  }

  /** `LookupError`: the only failure of the lookups, carrying the scheme and
      the exact key that missed. */
  datatype LookupError = AbbrevNotFound(scheme: Scheme, key: string)

  /** The `Display` text of a lookup error. */
  function Display(e: LookupError): (text: string)
    ensures StartsWith(text, SchemeName(e.scheme) + " abbreviation '")
  {
    SchemeName(e.scheme) + " abbreviation '" + e.key + "' not found"
  }

  /** The message identifies the error: different errors never print alike. */
  lemma DisplayInjective(e1: LookupError, e2: LookupError)
    ensures Display(e1) == Display(e2) <==> e1 == e2
  {
    if Display(e1) == Display(e2) {
      var t := Display(e1);
      assert t[0] == SchemeName(e1.scheme)[0] == SchemeName(e2.scheme)[0];
      assert e1.scheme == e2.scheme;
      var head := SchemeName(e1.scheme) + " abbreviation '";
      var tail := "' not found";
      assert t == head + e1.key + tail;
      assert t == head + e2.key + tail;
      assert e1.key == t[|head|..|t| - |tail|];
      assert e2.key == t[|head|..|t| - |tail|];
    }
  }

  /** The reference abbreviation of the book at `index`. */
  function ReferenceOf(t: Tables, index: nat): string
    requires index < |t.books|
  {
    t.books[index].bosReferenceAbbreviation
  }

  /** `is_valid_reference_abbreviation`: an exact key of the reference map. */
  predicate IsValidReferenceAbbreviation(t: Tables, code: string) {
    code in t.referenceMap
  }

  /** `reference_abbrev_to_usfm_abbrev`: three outcomes. An unknown code is an
      error naming the code; a known one gives the book's optional USFM
      abbreviation, `None` being a legitimate answer distinct from the error. */
  function ReferenceAbbrevToUsfmAbbrev(t: Tables, code: string): (r: Result<Option<string>, LookupError>)
    requires t.Valid()
    ensures r.Err? <==> !IsValidReferenceAbbreviation(t, code)
    ensures r.Err? ==> r.error == AbbrevNotFound(Reference, code)
    ensures r.Ok? ==> r.value == t.books[t.referenceMap[code]].usfmAbbreviation
  {
    if code in t.referenceMap then
      Ok(t.books[t.referenceMap[code]].usfmAbbreviation)
    else
      Err(AbbrevNotFound(Reference, code))
  }

  /** The validity check holds exactly when reference→USFM resolves. */
  lemma ValidAgreesWithLookup(t: Tables, code: string)
    requires t.Valid()
    ensures IsValidReferenceAbbreviation(t, code) <==> ReferenceAbbrevToUsfmAbbrev(t, code).Ok?
  {
  }

  /** `usfm_abbrev_to_reference_abbrev`: the exact map first; only on a miss
      the uppercase map, looked up with the input as given (not upper-cased);
      a miss in both is an error naming the input. */
  function UsfmAbbrevToReferenceAbbrev(t: Tables, usfm: string): (r: Result<string, LookupError>)
    requires t.Valid()
    ensures usfm in t.usfmMap ==> r == Ok(ReferenceOf(t, t.usfmMap[usfm]))
    ensures usfm !in t.usfmMap && usfm in t.uppercaseUsfmMap ==> r == Ok(ReferenceOf(t, t.uppercaseUsfmMap[usfm]))
    ensures r.Err? <==> usfm !in t.usfmMap && usfm !in t.uppercaseUsfmMap
    ensures r.Err? ==> r.error == AbbrevNotFound(Usfm, usfm)
  {
    if usfm in t.usfmMap then
      Ok(ReferenceOf(t, t.usfmMap[usfm]))
    else if usfm in t.uppercaseUsfmMap then
      Ok(ReferenceOf(t, t.uppercaseUsfmMap[usfm]))
    else
      Err(AbbrevNotFound(Usfm, usfm))
  }

  /** `osis_abbrev_to_reference_abbrev`: one exact lookup. */
  function OsisAbbrevToReferenceAbbrev(t: Tables, osis: string): (r: Result<string, LookupError>)
    requires t.Valid()
    ensures r.Err? <==> osis !in t.osisMap
    ensures r.Err? ==> r.error == AbbrevNotFound(Osis, osis)
    ensures r.Ok? ==> r.value == ReferenceOf(t, t.osisMap[osis])
  {
    if osis in t.osisMap then
      Ok(ReferenceOf(t, t.osisMap[osis]))
    else
      Err(AbbrevNotFound(Osis, osis))
  }

  // ---------------------------------------------------------------------
  // English names
  // ---------------------------------------------------------------------

  /** The ordinal-prefix rewrite rules, in the order they are tried: each
      source prefix (with its trailing space or dot) is replaced by the bare
      numeral. */
  const OrdinalRules: seq<(string, string)> := [
    ("1.", "1"), ("I ", "1"), ("I.", "1"),
    ("2.", "2"), ("II ", "2"), ("II.", "2"),
    ("3.", "3"), ("III ", "3"), ("III.", "3"),
    ("4.", "4"), ("IV ", "4"), ("IV.", "4"),
    ("5.", "5"), ("V ", "5"), ("V.", "5"),
    ("6.", "6"), ("VI ", "6"), ("VI.", "6")
  ]

  /** The key a rule proposes for an upper-cased name it matches: the numeral
      followed by what comes after the whole prefix. */
  function Candidate(adjusted: string, i: nat): (key: string)
    requires i < |OrdinalRules| && StartsWith(adjusted, OrdinalRules[i].0)
    ensures |key| == |adjusted| - |OrdinalRules[i].0| + 1
    ensures '1' <= key[0] <= '6' && key[1..] == adjusted[|OrdinalRules[i].0|..]
  {
    OrdinalRules[i].1 + adjusted[|OrdinalRules[i].0|..]
  }

  /** An English-name-map lookup, mapped to the book's reference abbreviation. */
  function EnglishLookup(t: Tables, key: string): Option<string>
    requires t.Valid()
  {
    if key in t.englishNameMap then Some(ReferenceOf(t, t.englishNameMap[key])) else None
  }

  /** The rule loop from rule `i` on: the first rule whose prefix matches and
      whose candidate is in the map decides; otherwise `None`. */
  function TryRules(t: Tables, adjusted: string, i: nat): (r: Option<string>)
    requires t.Valid() && i <= |OrdinalRules|
    ensures r.Some? ==> exists k :: i <= k < |OrdinalRules| && StartsWith(adjusted, OrdinalRules[k].0)
                                    && r == EnglishLookup(t, Candidate(adjusted, k))
    decreases |OrdinalRules| - i
  {
    if i == |OrdinalRules| then
      None
    else if StartsWith(adjusted, OrdinalRules[i].0) && EnglishLookup(t, Candidate(adjusted, i)).Some? then
      EnglishLookup(t, Candidate(adjusted, i))
    else
      TryRules(t, adjusted, i + 1)
  }

  /** `english_name_to_reference_abbrev`: the upper-cased name looked up
      exactly, then through the ordinal rules. */
  function EnglishNameToReferenceAbbrev(t: Tables, name: string): (r: Option<string>)
    requires t.Valid()
    ensures Upper(name) in t.englishNameMap ==> r == EnglishLookup(t, Upper(name))
  {
    var adjusted := Upper(name);
    if adjusted in t.englishNameMap then EnglishLookup(t, adjusted) else TryRules(t, adjusted, 0)
  }

  /** A rule prefix ends in its separator, a space or a dot, and has no
      separator before that. */
  predicate SeparatorTerminated(p: string) {
    && |p| > 0
    && (p[|p| - 1] == ' ' || p[|p| - 1] == '.')
    && forall k :: 0 <= k < |p| - 1 ==> p[k] != ' ' && p[k] != '.'
  }

  lemma RulesSeparatorTerminated(i: nat)
    requires i < |OrdinalRules|
    ensures SeparatorTerminated(OrdinalRules[i].0)
  {
  }

  lemma RulesDistinct(i: nat, j: nat)
    requires i < j < |OrdinalRules|
    ensures OrdinalRules[i].0 != OrdinalRules[j].0
  {
  }

  /** No rule's prefix is a prefix of another's. */
  lemma RulesPrefixFree(i: nat, j: nat)
    requires i < |OrdinalRules| && j < |OrdinalRules| && i != j
    ensures !StartsWith(OrdinalRules[j].0, OrdinalRules[i].0)
  {
    var p, q := OrdinalRules[i].0, OrdinalRules[j].0;
    RulesSeparatorTerminated(i);
    RulesSeparatorTerminated(j);
    if i < j { RulesDistinct(i, j); } else { RulesDistinct(j, i); }
  }

  /** Hence at most one rule matches any name. */
  lemma AtMostOneRuleMatches(s: string, i: nat, j: nat)
    requires i < |OrdinalRules| && j < |OrdinalRules|
    requires StartsWith(s, OrdinalRules[i].0) && StartsWith(s, OrdinalRules[j].0)
    ensures i == j
  {
    if i != j {
      var p, q := OrdinalRules[i].0, OrdinalRules[j].0;
      RulesPrefixFree(i, j);
      RulesPrefixFree(j, i);
      if |p| <= |q| { PrefixesOfOneString(s, p, q); } else { PrefixesOfOneString(s, q, p); }
    }
  }

  /** The rule loop is decided by the one rule whose prefix matches, if any:
      its candidate's lookup is the answer, and without a matching rule the
      answer is `None`. */
  lemma {:induction false} TryRulesDecided(t: Tables, adjusted: string, i: nat)
    requires t.Valid() && i <= |OrdinalRules|
    ensures forall k :: i <= k < |OrdinalRules| && StartsWith(adjusted, OrdinalRules[k].0)
                        ==> TryRules(t, adjusted, i) == EnglishLookup(t, Candidate(adjusted, k))
    ensures (forall k :: i <= k < |OrdinalRules| ==> !StartsWith(adjusted, OrdinalRules[k].0))
            ==> TryRules(t, adjusted, i) == None
    decreases |OrdinalRules| - i
  {
    if i < |OrdinalRules| {
      TryRulesDecided(t, adjusted, i + 1);
      if StartsWith(adjusted, OrdinalRules[i].0) {
        forall k | i < k < |OrdinalRules|
          ensures !StartsWith(adjusted, OrdinalRules[k].0)
        {
          if StartsWith(adjusted, OrdinalRules[k].0) {
            AtMostOneRuleMatches(adjusted, i, k);
          }
        }
      }
    }
  }

  /** The English resolver, case by case: an exact hit on the upper-cased name
      wins before any rule is tried; otherwise the one matching rule's
      candidate is looked up; with no matching rule the answer is `None`. */
  lemma EnglishNameResolution(t: Tables, name: string)
    requires t.Valid()
    ensures var adjusted := Upper(name);
            adjusted !in t.englishNameMap ==>
              && (forall k :: 0 <= k < |OrdinalRules| && StartsWith(adjusted, OrdinalRules[k].0)
                   ==> EnglishNameToReferenceAbbrev(t, name) == EnglishLookup(t, Candidate(adjusted, k)))
              && ((forall k :: 0 <= k < |OrdinalRules| ==> !StartsWith(adjusted, OrdinalRules[k].0))
                   ==> EnglishNameToReferenceAbbrev(t, name) == None)
  {
    TryRulesDecided(t, Upper(name), 0);
  }

  /** The English resolver sees only the upper-cased input. */
  lemma EnglishNameIgnoresCase(t: Tables, name: string)
    requires t.Valid()
    ensures EnglishNameToReferenceAbbrev(t, Upper(name)) == EnglishNameToReferenceAbbrev(t, name)
  {
    UpperIdempotent(name);
  }

  /** The matched prefix goes with its separator: `I COR` is tried as `1COR`. */
  lemma RomanPrefixConsumesSeparator()
    ensures StartsWith("I COR", OrdinalRules[1].0)
    ensures Candidate("I COR", 1) == "1COR"
  {
  }
}

=== FILE: text.dfy ===
/** Character and string helpers that the source takes from its language
    runtimes: ASCII upper-casing, `split`/`join` on one separator character,
    JavaScript's `trim` and `parseInt`. */
module Text {
  import opened Wrappers

  // ---------------------------------------------------------------------
  // Upper-casing (ASCII only)
  // ---------------------------------------------------------------------

  predicate IsLowerAscii(c: char) {
    'a' <= c <= 'z'
  }

  function UpperChar(c: char): (u: char)
    ensures !IsLowerAscii(u)
    ensures IsLowerAscii(c) ==> 'A' <= u <= 'Z' && u as int == c as int - 32
    ensures !IsLowerAscii(c) ==> u == c
  {
    if IsLowerAscii(c) then (c as int - 32) as char else c
  }

  /** Upper-cases every ASCII letter and leaves every other character alone. */
  function Upper(s: string): (u: string)
    ensures |u| == |s|
    ensures forall i :: 0 <= i < |s| ==> !IsLowerAscii(u[i])
    ensures forall i :: 0 <= i < |s| && IsLowerAscii(s[i]) ==> u[i] as int == s[i] as int - 32
    ensures forall i :: 0 <= i < |s| && !IsLowerAscii(s[i]) ==> u[i] == s[i]
  {
    seq(|s|, i requires 0 <= i < |s| => UpperChar(s[i]))
  }

  /** A string without ASCII lower-case letters. */
  predicate IsUpperCased(s: string) {
    forall i :: 0 <= i < |s| ==> !IsLowerAscii(s[i])
  }

  /** The strings `Upper` can return are exactly those it leaves unchanged. */
  lemma UpperFixedPoints(s: string)
    ensures IsUpperCased(Upper(s))
    ensures Upper(s) == s <==> IsUpperCased(s)
  {
    if IsUpperCased(s) {
      assert forall i :: 0 <= i < |s| ==> Upper(s)[i] == s[i];
    } else {
      var i :| 0 <= i < |s| && IsLowerAscii(s[i]);
      assert Upper(s)[i] != s[i];
    }
  }

  lemma UpperIdempotent(s: string)
    ensures Upper(Upper(s)) == Upper(s)
  {
    UpperFixedPoints(s);
    UpperFixedPoints(Upper(s));
  }

  lemma UpperAppend(a: string, b: string)
    ensures Upper(a + b) == Upper(a) + Upper(b)
  {
  }

  lemma UpperDrop(s: string, k: nat)
    requires k <= |s|
    ensures Upper(s)[k..] == Upper(s[k..])
  {
  }

  // ---------------------------------------------------------------------
  // Prefixes
  // ---------------------------------------------------------------------

  /** Rust's `str::starts_with` / Python's `str.startswith`. */
  predicate StartsWith(s: string, prefix: string) {
    |prefix| <= |s| && s[..|prefix|] == prefix
  }

  /** Two prefixes of one string are comparable: the shorter is a prefix of
      the longer. */
  lemma PrefixesOfOneString(s: string, p: string, q: string)
    requires StartsWith(s, p) && StartsWith(s, q) && |p| <= |q|
    ensures StartsWith(q, p)
  {
    assert q[..|p|] == s[..|q|][..|p|] == s[..|p|];
  }

  // ---------------------------------------------------------------------
  // Splitting and joining on one separator character
  // ---------------------------------------------------------------------

  /** Python's `str.split(sep)` and JavaScript's `String.prototype.split(sep)`
      for a one-character separator: the pieces between separators, always at
      least one (the empty string splits into `[""]`). */
  function Split(s: string, sep: char): (parts: seq<string>)
    ensures |parts| >= 1
    decreases |s|
  {
    if |s| == 0 then [""]
    else
      var rest := Split(s[1..], sep);
      if s[0] == sep then [""] + rest
      else [[s[0]] + rest[0]] + rest[1..]
  }

  /** The inverse of `Split`: the pieces glued back with the separator. */
  function Join(parts: seq<string>, sep: char): string
    decreases |parts|
  {
    if |parts| == 0 then ""
    else if |parts| == 1 then parts[0]
    else parts[0] + [sep] + Join(parts[1..], sep)
  }

  /** No piece produced by `Split` contains the separator. */
  lemma {:induction false} SplitPiecesFree(s: string, sep: char)
    ensures forall k :: 0 <= k < |Split(s, sep)| ==> sep !in Split(s, sep)[k]
    decreases |s|
  {
    if |s| > 0 {
      SplitPiecesFree(s[1..], sep);
    }
  }

  /** Joining the pieces of a split gives the original string back. */
  lemma {:induction false} JoinSplit(s: string, sep: char)
    ensures Join(Split(s, sep), sep) == s
    decreases |s|
  {
    if |s| > 0 {
      var rest := Split(s[1..], sep);
      JoinSplit(s[1..], sep);
      if s[0] == sep {
        assert Split(s, sep) == [""] + rest;
        assert s == [sep] + s[1..];
      } else {
        var parts := [[s[0]] + rest[0]] + rest[1..];
        assert Split(s, sep) == parts;
        if |rest| == 1 {
          assert Join(parts, sep) == [s[0]] + rest[0];
        } else {
          assert parts[1..] == rest[1..];
          assert Join(rest, sep) == rest[0] + [sep] + Join(rest[1..], sep);
          assert Join(parts, sep) == [s[0]] + rest[0] + [sep] + Join(rest[1..], sep);
        }
        assert s == [s[0]] + s[1..];
      }
    }
  }

  /** The separator occurs in `s` exactly when the split has several pieces. */
  lemma SplitSingle(s: string, sep: char)
    ensures |Split(s, sep)| == 1 <==> sep !in s
  {
    SplitPiecesFree(s, sep);
    JoinSplit(s, sep);
    if |Split(s, sep)| > 1 {
      var parts := Split(s, sep);
      assert s == parts[0] + [sep] + Join(parts[1..], sep);
      assert s[|parts[0]|] == sep;
    }
  }

  /** A string without the separator is its own single piece. */
  lemma SplitFree(s: string, sep: char)
    requires sep !in s
    ensures Split(s, sep) == [s]
  {
    SplitSingle(s, sep);
    JoinSplit(s, sep);
  }

  /** The first separator ends the first piece; the rest splits on its own. */
  lemma {:induction false} SplitAt(a: string, b: string, sep: char)
    requires sep !in a
    ensures Split(a + [sep] + b, sep) == [a] + Split(b, sep)
    decreases |a|
  {
    var s := a + [sep] + b;
    if |a| == 0 {
      assert s[1..] == b;
    } else {
      assert s[0] == a[0] && s[1..] == a[1..] + [sep] + b;
      SplitAt(a[1..], b, sep);
      assert [a[0]] + a[1..] == a;
    }
  }

  /** JavaScript's `split(sep, 1)[0]`: everything before the first separator. */
  function TakeUntil(s: string, sep: char): (r: string)
    ensures StartsWith(s, r) && sep !in r
    ensures |r| < |s| ==> s[|r|] == sep
    decreases |s|
  {
    if |s| == 0 || s[0] == sep then ""
    else [s[0]] + TakeUntil(s[1..], sep)
  }

  /** Splitting with a limit of one keeps the first piece of the full split. */
  lemma {:induction false} TakeUntilIsFirstPiece(s: string, sep: char)
    ensures TakeUntil(s, sep) == Split(s, sep)[0]
    decreases |s|
  {
    if |s| > 0 && s[0] != sep {
      TakeUntilIsFirstPiece(s[1..], sep);
    }
  }

  function CountChar(s: string, c: char): nat
    decreases |s|
  {
    if |s| == 0 then 0
    else (if s[0] == c then 1 else 0) + CountChar(s[1..], c)
  }

  /** Each separator adds one piece: Python's `s.count(sep) + 1 == len(s.split(sep))`. */
  lemma {:induction false} SplitCount(s: string, sep: char)
    ensures |Split(s, sep)| == CountChar(s, sep) + 1
    decreases |s|
  {
    if |s| > 0 {
      SplitCount(s[1..], sep);
    }
  }

  // ---------------------------------------------------------------------
  // JavaScript whitespace, trim and parseInt
  // ---------------------------------------------------------------------

  /** The ECMAScript WhiteSpace and LineTerminator code points, which
      `String.prototype.trim` and `parseInt` skip. */
  predicate IsJsWhitespace(c: char) {
    || c == '\t' || c == '\n' || c == '\U{000B}' || c == '\U{000C}' || c == '\r'
    || c == ' ' || c == '\U{00A0}' || c == '\U{1680}'
    || ('\U{2000}' <= c <= '\U{200A}')
    || c == '\U{2028}' || c == '\U{2029}' || c == '\U{202F}' || c == '\U{205F}'
    || c == '\U{3000}' || c == '\U{FEFF}'
  }

  function TrimStart(s: string): (r: string)
    ensures |r| <= |s| && r == s[|s| - |r|..]
    ensures forall i :: 0 <= i < |s| - |r| ==> IsJsWhitespace(s[i])
    ensures |r| > 0 ==> !IsJsWhitespace(r[0])
    decreases |s|
  {
    if |s| > 0 && IsJsWhitespace(s[0]) then TrimStart(s[1..]) else s
  }

  function TrimEnd(s: string): (r: string)
    ensures |r| <= |s| && r == s[..|r|]
    ensures forall i :: |r| <= i < |s| ==> IsJsWhitespace(s[i])
    ensures |r| > 0 ==> !IsJsWhitespace(r[|r| - 1])
    decreases |s|
  {
    if |s| > 0 && IsJsWhitespace(s[|s| - 1]) then TrimEnd(s[..|s| - 1]) else s
  }

  /** `r` is the slice of `s` starting at `i`, and everything of `s` outside
      that slice is whitespace. */
  predicate TrimmedAt(s: string, r: string, i: int) {
    && 0 <= i <= |s| - |r| && r == s[i..i + |r|]
    && (forall k :: 0 <= k < i ==> IsJsWhitespace(s[k]))
    && (forall k :: i + |r| <= k < |s| ==> IsJsWhitespace(s[k]))
  }

  /** `String.prototype.trim`: the longest slice of `s` that neither starts
      nor ends with whitespace, with only whitespace cut on either side. */
  function Trim(s: string): (r: string)
    ensures exists i :: TrimmedAt(s, r, i)
    ensures |r| > 0 ==> !IsJsWhitespace(r[0]) && !IsJsWhitespace(r[|r| - 1])
  {
    var a := TrimStart(s);
    var r := TrimEnd(a);
    var i := |s| - |a|;
    assert TrimmedAt(s, r, i);
    r
  }

  predicate IsDecimalDigit(c: char) {
    '0' <= c <= '9'
  }

  function HexValue(c: char): (v: int)
    ensures -1 <= v < 16
  {
    if '0' <= c <= '9' then c as int - '0' as int
    else if 'a' <= c <= 'f' then c as int - 'a' as int + 10
    else if 'A' <= c <= 'F' then c as int - 'A' as int + 10
    else -1
  }

  /** The longest prefix of `s` made of digits of the given radix. */
  function DigitRun(s: string, radix: nat): (r: string)
    requires radix == 10 || radix == 16
    ensures StartsWith(s, r)
    ensures forall i :: 0 <= i < |r| ==> 0 <= HexValue(r[i]) < radix
    ensures |r| < |s| ==> !(0 <= HexValue(s[|r|]) < radix)
    decreases |s|
  {
    if |s| > 0 && 0 <= HexValue(s[0]) < radix then [s[0]] + DigitRun(s[1..], radix) else ""
  }

  /** The value of a digit string, most significant digit first. */
  function DigitsValue(digits: string, radix: nat): (v: nat)
    requires radix == 10 || radix == 16
    requires forall i :: 0 <= i < |digits| ==> 0 <= HexValue(digits[i]) < radix
    decreases |digits|
  {
    if |digits| == 0 then 0
    else DigitsValue(digits[..|digits| - 1], radix) * radix + HexValue(digits[|digits| - 1])
  }

  /** JavaScript's `Number.parseInt(s)` without a radix argument: leading
      whitespace is skipped, one optional sign is read, and the digits that
      follow are the value; `None` stands for `NaN` (no digit at all). */
  function ParseInt(s: string): (r: Option<int>)
    ensures r.Some? ==> exists k :: 0 <= k < |s| && IsDecimalDigit(s[k])
  {
    var t := TrimStart(s);
    var r := ParseTrimmed(t);
    assert r.Some? ==> IsDecimalDigit(s[|s| - |t| + SignLength(t)]);
    r
  }

  /** 1 when the text starts with a sign, else 0. */
  function SignLength(t: string): nat {
    if |t| > 0 && (t[0] == '-' || t[0] == '+') then 1 else 0
  }

  /** `parseInt` after the leading whitespace: one optional sign, then the
      unsigned reading. */
  function ParseTrimmed(t: string): (r: Option<int>)
    ensures r.Some? ==> SignLength(t) < |t| && IsDecimalDigit(t[SignLength(t)])
  {
    if |t| > 0 && t[0] == '-' then
      match ParseUnsigned(t[1..])
      case None => None
      case Some(m) => Some(0 - m as int)
    else if |t| > 0 && t[0] == '+' then ParseUnsigned(t[1..])
    else ParseUnsigned(t)
  }

  /** The unsigned part of `parseInt`: a `0x`/`0X` prefix selects base 16,
      otherwise base 10, and the longest run of digits of that base is read. */
  function ParseUnsigned(u: string): (r: Option<nat>)
    ensures r.Some? ==> |u| > 0 && IsDecimalDigit(u[0])
  {
    if |u| >= 2 && u[0] == '0' && (u[1] == 'x' || u[1] == 'X') then
      var d := DigitRun(u[2..], 16);
      if |d| == 0 then None else Some(DigitsValue(d, 16))
    else
      var d := DigitRun(u, 10);
      if |d| == 0 then None else Some(DigitsValue(d, 10))
  }

  /** A plain run of decimal digits parses to its value. */
  lemma ParseIntDecimal(s: string)
    requires |s| > 0 && forall i :: 0 <= i < |s| ==> 0 <= HexValue(s[i]) < 10
    ensures ParseInt(s) == Some(DigitsValue(s, 10))
  {
    DigitNotWhitespace(s[0]);
    assert TrimStart(s) == s;
    assert s[0] != '-' && s[0] != '+';
    assert ParseInt(s) == ParseUnsigned(s);
    DigitRunAll(s);
    ParseUnsignedDecimal(s);
  }

  lemma DigitNotWhitespace(c: char)
    requires 0 <= HexValue(c) < 10
    ensures !IsJsWhitespace(c) && '0' <= c <= '9'
  {
  }

  lemma ParseUnsignedDecimal(s: string)
    requires |s| > 0 && forall i :: 0 <= i < |s| ==> 0 <= HexValue(s[i]) < 10
    requires DigitRun(s, 10) == s
    ensures ParseUnsigned(s) == Some(DigitsValue(s, 10))
  {
    if |s| >= 2 {
      assert 0 <= HexValue(s[1]) < 10;
      assert s[1] != 'x' && s[1] != 'X';
    }
  }

  lemma {:induction false} DigitRunAll(s: string)
    requires forall i :: 0 <= i < |s| ==> 0 <= HexValue(s[i]) < 10
    ensures DigitRun(s, 10) == s
    decreases |s|
  {
    if |s| > 0 {
      DigitRunAll(s[1..]);
    }
  }

  /** Leading whitespace does not change what `parseInt` reads. */
  lemma {:induction false} ParseIntSkipsWhitespace(w: string, s: string)
    requires forall i :: 0 <= i < |w| ==> IsJsWhitespace(w[i])
    ensures ParseInt(w + s) == ParseInt(s)
  {
    TrimStartSkips(w, s);
  }

  lemma {:induction false} TrimStartSkips(w: string, s: string)
    requires forall i :: 0 <= i < |w| ==> IsJsWhitespace(w[i])
    ensures TrimStart(w + s) == TrimStart(s)
    decreases |w|
  {
    if |w| == 0 {
      assert w + s == s;
    } else {
      assert (w + s)[1..] == w[1..] + s;
      TrimStartSkips(w[1..], s);
    }
  }

  /** After the whitespace, a `-` negates the unsigned reading; a sign
      followed by anything but a digit gives `NaN`. */
  lemma ParseIntMinus(u: string)
    ensures ParseInt("-" + u) == if ParseUnsigned(u).Some? then Some(0 - ParseUnsigned(u).value) else None
  {
    var minus := "-" + u;
    assert minus[0] == '-';
    assert TrimStart(minus) == minus;
    assert minus[1..] == u;
  }

  /** A `+` after the whitespace is dropped. */
  lemma ParseIntPlus(u: string)
    ensures ParseInt("+" + u) == ParseUnsigned(u)
  {
    var plus := "+" + u;
    assert plus[0] == '+';
    assert TrimStart(plus) == plus;
    assert plus[1..] == u;
  }

  /** Decimal digits are read up to the first character that is not one. */
  lemma ParseIntDecimalPrefix(d: string, tail: string)
    requires |d| > 0 && forall i :: 0 <= i < |d| ==> 0 <= HexValue(d[i]) < 10
    requires |tail| > 0 ==> !(0 <= HexValue(tail[0]) < 10)
    requires !(d == "0" && |tail| > 0 && (tail[0] == 'x' || tail[0] == 'X'))
    ensures ParseInt(d + tail) == Some(DigitsValue(d, 10))
  {
    var s := d + tail;
    DigitNotWhitespace(d[0]);
    assert s[0] == d[0];
    Unsigned(s);
    DigitRunStops(d, tail, 10);
    NoHexPrefix(d, tail);
    UnsignedDecimal(s, d);
  }

  lemma NoHexPrefix(d: string, tail: string)
    requires |d| > 0 && forall i :: 0 <= i < |d| ==> 0 <= HexValue(d[i]) < 10
    requires !(d == "0" && |tail| > 0 && (tail[0] == 'x' || tail[0] == 'X'))
    ensures var s := d + tail; !(|s| >= 2 && s[0] == '0' && (s[1] == 'x' || s[1] == 'X'))
  {
    var s := d + tail;
    if |d| >= 2 {
      assert s[1] == d[1];
      assert 0 <= HexValue(d[1]) < 10;
    } else if |s| >= 2 && s[0] == '0' {
      assert d == "0";
      assert s[1] == tail[0];
    }
  }

  lemma UnsignedDecimal(s: string, d: string)
    requires |d| > 0 && forall i :: 0 <= i < |d| ==> 0 <= HexValue(d[i]) < 10
    requires DigitRun(s, 10) == d
    requires !(|s| >= 2 && s[0] == '0' && (s[1] == 'x' || s[1] == 'X'))
    ensures ParseUnsigned(s) == Some(DigitsValue(d, 10))
  {
  }

  /** After `0x`, hexadecimal digits are read up to the first character that
      is not one. */
  lemma ParseIntHex(h: string, tail: string)
    requires |h| > 0 && forall i :: 0 <= i < |h| ==> 0 <= HexValue(h[i]) < 16
    requires |tail| > 0 ==> !(0 <= HexValue(tail[0]) < 16)
    ensures ParseInt("0x" + h + tail) == Some(DigitsValue(h, 16))
  {
    var rest := h + tail;
    var s := "0x" + rest;
    assert "0x" + h + tail == s;
    DropPrefix("0x", rest);
    assert s[0] == '0' && s[1] == 'x';
    Unsigned(s);
    DigitRunStops(h, tail, 16);
    UnsignedHex(s, h);
  }

  /** Text that starts with neither whitespace nor a sign is read unsigned. */
  lemma Unsigned(s: string)
    requires |s| > 0 && '0' <= s[0] <= '9'
    ensures ParseInt(s) == ParseUnsigned(s)
  {
    assert !IsJsWhitespace(s[0]);
    assert TrimStart(s) == s;
    assert ParseTrimmed(s) == ParseUnsigned(s);
  }

  lemma DropPrefix(a: string, b: string)
    ensures (a + b)[|a|..] == b
  {
  }

  lemma UnsignedHex(s: string, h: string)
    requires |h| > 0 && forall i :: 0 <= i < |h| ==> 0 <= HexValue(h[i]) < 16
    requires |s| >= 2 && s[0] == '0' && s[1] == 'x' && DigitRun(s[2..], 16) == h
    ensures ParseUnsigned(s) == Some(DigitsValue(h, 16))
  {
  }

  lemma {:induction false} DigitRunStops(d: string, tail: string, radix: nat)
    requires radix == 10 || radix == 16
    requires forall i :: 0 <= i < |d| ==> 0 <= HexValue(d[i]) < radix
    requires |tail| > 0 ==> !(0 <= HexValue(tail[0]) < radix)
    ensures DigitRun(d + tail, radix) == d
    decreases |d|
  {
    if |d| == 0 {
      assert d + tail == tail;
    } else {
      assert (d + tail)[1..] == d[1..] + tail;
      DigitRunStops(d[1..], tail, radix);
    }
  }

  /** The digits stop at the first letter. */
  lemma ParseIntDigitsExample()
    ensures ParseInt("12ab") == Some(12)
  {
    var d, tail := "12", "ab";
    assert d + tail == "12ab";
    ParseIntDecimalPrefix(d, tail);
    assert DigitsValue(d, 10) == 12;
  }

  /** Leading whitespace is skipped. */
  lemma ParseIntWhitespaceExample()
    ensures ParseInt(" \t12ab") == Some(12)
  {
    var w, rest := " \t", "12ab";
    assert w + rest == " \t12ab";
    ParseIntSkipsWhitespace(w, rest);
    ParseIntDigitsExample();
  }

  /** A hexadecimal prefix. */
  lemma ParseUnsignedHexExample()
    ensures ParseUnsigned("0x1A") == Some(26)
  {
    var h := "1A";
    DigitRunStops(h, "", 16);
    assert h + "" == h;
    UnsignedHex("0x1A", h);
    assert DigitsValue(h, 16) == 26;
  }

  lemma ParseTrimmedHexExample()
    ensures ParseTrimmed("-0x1A") == Some(-26)
  {
    ParseUnsignedHexExample();
    assert "-0x1A"[1..] == "0x1A";
  }

  /** A sign in front of a hexadecimal prefix. */
  lemma ParseIntHexExample()
    ensures ParseInt("-0x1A") == Some(-26)
  {
    NoLeadingWhitespace("-0x1A");
    ParseTrimmedHexExample();
  }

  /** Without leading whitespace, `parseInt` goes straight to the sign. */
  lemma NoLeadingWhitespace(s: string)
    requires |s| > 0 && !IsJsWhitespace(s[0])
    ensures ParseInt(s) == ParseTrimmed(s)
  {
    assert TrimStart(s) == s;
  }

  /** `0x` with no hexadecimal digit after it gives `NaN`. */
  lemma ParseIntEmptyHexExample()
    ensures ParseInt("0x") == None
  {
  }

  /** A leading letter gives `NaN`. */
  lemma ParseIntLetterExample()
    ensures ParseInt("x1") == None
  {
    NonDigitStart("x1");
  }

  /** Text whose first character is neither whitespace, a sign nor a digit
      reads as `NaN`. */
  lemma NonDigitStart(s: string)
    requires |s| > 0 && !IsJsWhitespace(s[0]) && s[0] != '-' && s[0] != '+' && !IsDecimalDigit(s[0])
    ensures ParseInt(s) == None
  {
    NoLeadingWhitespace(s);
  }
}

=== FILE: wrappers.dfy ===
/** Failure-carrying value types shared by every module of the model, named
    after the Rust types the resolution engine returns. */
module Wrappers {

  /** Rust's `Option`: a value that may be absent. */
  datatype Option<+T> = None | Some(value: T)

  /** Rust's `Result`: a value, or the error that replaced it. It supports
      Dafny's `:-`, which plays the part of Rust's `?`. */
  datatype Result<+T, +E> = Ok(value: T) | Err(error: E) {

    predicate IsFailure() {
      Err?
    }

    function PropagateFailure<U>(): Result<U, E>
      requires Err?
    {
      Err(error)
    }

    function Extract(): T
      requires Ok?
    {
      value
    }
  }
}
